=== FILE: README.md ===
# git-churn core in Dafny

A model of the churn-metrics core of git-churn, with proofs:

- **Deleted-line classifier.** It walks the chunk sequence (Equal / Add / Delete) of each file patch with a before-file line counter. It records the 1-based numbers of the deleted lines. The whitespace-excluded variant skips lines that are `""`. The result map is keyed by the from-path, or by the to-path when the patch has no from-file.
- **Line counting over trees.** This covers per-file and per-tree LOC, with and without empty lines, and the list of file names.
- **Commit range enumeration.** Two `revlist.Objects` walks over a finite object store, with the first walk's result as the second walk's ignore set. The commits among the walked hashes are kept and sorted newest first.
- **Author extraction.** The e-mails of the range commits whose tree holds a file, without duplicates.
- **Metrics assembly.** Per-file metrics come from go-git's stats, or from the rendered patch text when whitespace is excluded. The new-file and deleted-file flags, the aggregates over all files, and the new and deleted file counts are modelled too.

Modules, one file each:

- `Wrappers` has `Option` and `Result`.
- `Seqs` has sums, `Distinct` and duplicate removal.
- `Strings` has Go's `strings.Split` and `TrimSpace`.
- `DeletedLines` is the classifier.
- `Loc` covers the tree line counts.
- `GitObjects` has the object store and the `revlist.Objects` walk.
- `RevList` has `RevList` and `GetDistinctAuthorsEMailIds`.
- `DiffText` has the rendered-patch counters.
- `DiffMetrics` has the metric structs and the per-file and aggregate metrics.

Inputs that go-git computes are parameters of the model:

- the chunk sequence and `Files()` pair of each file patch;
- the list of `Patch.Stats()` entries;
- the rendered patch text;
- the file list of a tree, each file with its `Lines()`;
- the object store the walks read.

## Model

| member | source | states |
|---|---|---|
| DeletedLines.LineCount | gitfuncs/gitfuncs.go:262-266 | a chunk's line count is the number of '\n' when its content ends in '\n', else one more |
| DeletedLines.ChunkBefore | gitfuncs/gitfuncs.go:260-281 | an Add chunk stands for no before-file line; an Equal or Delete chunk stands for LineCount lines, deleted exactly when the chunk is a Delete |
| DeletedLines.EqualChunkLength | gitfuncs/gitfuncs.go:261-268 | an Equal chunk advances the counter by its line count (the same rule as a Delete chunk) |
| DeletedLines.RecordDeleteChunk | gitfuncs/gitfuncs.go:310-324 | a Delete chunk appends counter+i for its i-th line (skipping "" lines when asked) and advances by its line count |
| DeletedLines.ProcessChunk | gitfuncs/gitfuncs.go:260-282 | one chunk step: what it appends is the numbers of its recorded before-file lines, and it advances the counter by its before-file length |
| DeletedLines.FileDeletedLines | gitfuncs/gitfuncs.go:258-282 | the per-file loop produces the numbers of the recorded lines of the before file the chunks rebuild |
| DeletedLines.DeletedLinesShape | gitfuncs/gitfuncs.go:258-281 | both lists are strictly increasing within 1 .. Equal lines + Delete lines; the inclusive list has one entry per Delete-chunk line |
| DeletedLines.DeletedLinesExact | gitfuncs/gitfuncs.go:276-279 | n is listed exactly when before-file line n is deleted (and not "" for the excluded list) |
| DeletedLines.BeforeFileSize | gitfuncs/gitfuncs.go:260-282 | the final counter is Equal lines plus Delete lines, and the deleted lines are exactly the Delete lines |
| DeletedLines.AddChunkInvisible | gitfuncs/gitfuncs.go:260-282 | inserting an Add chunk anywhere changes neither the before file nor either list |
| DeletedLines.ExcludedIsFilteredInclusive | gitfuncs/gitfuncs.go:318-322 | the excluded list is the inclusive list with exactly the numbers of "" lines removed |
| DeletedLines.ClassifyPatches | gitfuncs/gitfuncs.go:283-288 | the map's keys are exactly the patch keys (from-path, else to-path), and the last patch with a key decides its list |
| DeletedLines.DeletedLineNumbers | gitfuncs/gitfuncs.go:252-292 | one inclusive list per key, the last patch of that key winning |
| DeletedLines.DeletedLineNumbersWhitespaceExcluded | gitfuncs/gitfuncs.go:294-335 | one list without "" lines per key, the last patch of that key winning |
| Loc.NonBlankCount | gitfuncs/gitfuncs.go:160-164 | the non-"" lines and the "" lines together are all the lines; at most the number of lines, and equal to it exactly when no line is "" |
| Loc.FileLOCFromTree | gitfuncs/gitfuncs.go:127-137 | 0 for an absent path; otherwise the line count of the last file with that name |
| Loc.FileLOCFromTreeWhitespaceExcluded | gitfuncs/gitfuncs.go:155-169 | the non-"" lines of every file named path, added up (so 0 for an absent path); with distinct names, the non-"" line count of the one file with that name |
| Loc.LOCFilesFromTree | gitfuncs/gitfuncs.go:141-151 | the name list is every enumerated file name once, in enumeration order |
| Loc.LOCFilesFromTreeWhitespaceExcluded | gitfuncs/gitfuncs.go:173-187 | the name list is every enumerated file name once, in enumeration order |
| Loc.TreeLOCIsSumOfFileLOC | gitfuncs/gitfuncs.go:141-151 | with distinct names, the tree total is the sum of the per-file counts over the listed names (both variants) |
| Loc.TreeLOCOrderIndependent | gitfuncs/gitfuncs.go:144-149 | the totals and the multiset of names do not depend on the enumeration order |
| Loc.ExcludedAtMostIncluded | gitfuncs/gitfuncs.go:155-169 | the whitespace-excluded counts never exceed the inclusive ones, per file and per tree |
| GitObjects.Objects | gitfuncs/gitfuncs.go:356-363 | the walk lists each hash once, only reachable non-ignored hashes, every non-ignored start, and is closed under children; a failure names a missing reachable hash |
| GitObjects.FullWalkIsReachable | gitfuncs/gitfuncs.go:356 | a complete walk without an ignore set holds exactly the reachable hashes |
| GitObjects.AvoidingClosedSet | gitfuncs/gitfuncs.go:360 | with the ignore set the history of endCommit, avoiding it is the same as being unreachable from endCommit |
| RevList.RangeHashes | gitfuncs/gitfuncs.go:356-363 | the second walk holds exactly reachable(beginCommit) minus reachable(endCommit), each hash once; it succeeds exactly when every hash reachable from either commit is in the store, and an error is a missing hash of either history |
| RevList.CommitsAmong | gitfuncs/gitfuncs.go:365-371 | the commits among the hashes; hashes that are not commits are skipped |
| RevList.CommitsAmongDistinct | gitfuncs/gitfuncs.go:365-371 | in a store whose commits sit under their own hash, distinct hashes give distinct commits |
| RevList.SortByTimeDesc | gitfuncs/gitfuncs.go:373 | the result is sorted by committer time, newest first, and is a permutation of the input |
| RevList.RevList | gitfuncs/gitfuncs.go:352-377 | newest-first list whose members are exactly the range commits, none twice when commits sit under their own hash; empty when begin == end; it succeeds exactly when both histories are in the store, and a walk error is a missing hash of either history |
| RevList.ChildRangeIsEmpty | gitfuncs/gitfuncs.go:353-360 | as written, the range from a parent to its child is empty |
| RevList.TreeOf | gitfuncs/gitfuncs.go:388-391 | a commit's tree resolves exactly when the store holds that tree object, else ObjectNotFound |
| RevList.AuthorEmails | gitfuncs/gitfuncs.go:386-397 | succeeds exactly when every tree resolves; lists exactly the authors of commits whose tree has the file; a failure comes from some commit's tree |
| RevList.GetDistinctAuthorsEMailIds | gitfuncs/gitfuncs.go:379-401 | no duplicates; exactly the e-mails of range commits whose tree holds the file; success implies both histories are in the store and every range commit's tree resolves; an error is a missing hash of either history or a range commit's tree error |
| Seqs.Unique | gitfuncs/gitfuncs.go:398 | duplicate-free, with exactly the elements of the input |
| Strings.SplitCountChar | gitfuncs/gitfuncs.go:263 | splitting at a character gives one piece more than the character occurs |
| Strings.JoinSplit | matrics/diffmetrics.go:71 | joining the pieces of a split with the separator gives the string back |
| Strings.SplitFindsSeparator | matrics/diffmetrics.go:71-72 | a split has a second piece exactly when the separator occurs |
| Strings.SplitAtFirst | matrics/diffmetrics.go:75 | when the first occurrence of the separator follows a prefix, that prefix is the first piece and the pieces of the rest follow |
| Strings.TrimSpace | matrics/diffmetrics.go:83 | the result is the middle of the string with only white space cut off both ends; it is "" exactly for a blank string |
| DiffText.CountLinesAsWritten | matrics/diffmetrics.go:82-91 | the counter as written never counts more lines than there are |
| DiffText.CountLinesAsWrittenIsSum | matrics/diffmetrics.go:82-91 | the insertions are the number of lines whose trimmed form starts with '+' and is not "+"; likewise the deletions with '-' |
| DiffText.CountLinesAsWrittenAppend | matrics/diffmetrics.go:208-221 | counting two line lists one after the other gives the sum of their separate counts |
| DiffText.AsWrittenLineClassification | matrics/diffmetrics.go:82-91 | a line is an insertion exactly when its trimmed form starts with '+' and is longer than "+", and never both an insertion and a deletion |
| DiffText.AsWrittenCountsContextLine | matrics/diffmetrics.go:82-91 | an unchanged hunk line whose text is '-' followed by non-blank text is counted as a deletion |
| DiffText.CountLines | matrics/diffmetrics.go:82-91 | the corrected counter never counts more lines than there are |
| DiffText.CountLinesMatchesHunk | matrics/diffmetrics.go:82-91 | on a rendered hunk body, the corrected counter counts exactly the non-blank added and removed lines |
| DiffText.PartCounts | matrics/diffmetrics.go:75-91 | a file part's counts are the number of its body lines (after "+++", before the next "diff --git") that the as-written loop takes for insertions, and for deletions |
| DiffText.CorrectedPartCountsMatchesHunk | matrics/diffmetrics.go:75-91 | with the corrected classifier, a part whose body lines are the rest of the "+++" line followed by rendered hunks ("@@" headers included) counts exactly the non-blank added and removed lines |
| DiffText.FileDiffLinesOfPart | matrics/diffmetrics.go:75-77 | when the only "+++" of a part opens its "+++" line and no "diff --git" follows, the body lines are the lines after that "+++" |
| DiffText.CorrectedCountsOfRenderedPart | matrics/diffmetrics.go:71-91 | on a whole part as the encoder writes it (prefix, "+++", rest of that line, rendered hunks), the corrected counts are the non-blank added and removed lines |
| DiffText.SumPartsSnoc | matrics/diffmetrics.go:202-221 | one more file part adds exactly its own counts to the running totals |
| DiffText.SumPartsIsLineCount | matrics/diffmetrics.go:202-221 | the totals over the parts are the as-written count of all their body lines, one part after another |
| DiffMetrics.StatFor | matrics/diffmetrics.go:42-47 | none when no stats entry has the name; otherwise the last entry with that name |
| DiffMetrics.WithFlags | matrics/diffmetrics.go:52-58 | NewFile exactly when before == 0 and after != 0, DeleteFile exactly when before != 0 and after == 0; never both |
| DiffMetrics.CalculateDiffMetricsWithWhitespace | matrics/diffmetrics.go:30-62 | counts of the last matching stats entry (0 and 0 without one), line counts of both trees; NewFile exactly when before == 0 and after != 0, DeleteFile exactly when before != 0 and after == 0 |
| DiffMetrics.FlagsFollowFilePresence | matrics/diffmetrics.go:49-58 | a new file is in the commit's tree and a deleted one in the parent's; a non-empty file absent from the parent is new, one absent from the commit is deleted |
| DiffMetrics.CalculateDiffMetricsWhitespaceExcluded | matrics/diffmetrics.go:64-108 | an error exactly when "diff --git a/"+path does not occur; otherwise the insertions and deletions are the as-written classified lines of the part after that marker, the non-"" line counts of both trees, and the flags by the same rule as the inclusive variant |
| DiffMetrics.GetNewFilesCount | matrics/diffmetrics.go:175-189 | the number of after entries (duplicates counted) absent from the before list |
| DiffMetrics.GetDeletedFilesCount | matrics/diffmetrics.go:159-173 | the number of before entries (duplicates counted) absent from the after list |
| DiffMetrics.SetFilesCounts | matrics/diffmetrics.go:146-157 | FilesCount = len(after); NewFiles is the number of after entries absent from the before list and DeletedFiles the reverse; each is 0 exactly when one list is covered by the other |
| DiffMetrics.FileCountsBalance | matrics/diffmetrics.go:159-189 | with duplicate-free lists, FilesCount - NewFiles = len(before) - DeletedFiles = the number of common names |
| DiffMetrics.FileCountsOrderIndependent | matrics/diffmetrics.go:159-189 | reordering either list leaves all three counts unchanged |
| DiffMetrics.AggrDiffMetricsWithWhitespace | matrics/diffmetrics.go:112-143 | with distinct names, the line totals are the sums of the per-file counts; NewFiles counts the commit's file names absent from the parent's, DeletedFiles the reverse |
| DiffMetrics.AggregateIsSumOfPerFile | matrics/diffmetrics.go:122-129 | with one stats entry per file, the aggregate insertions and deletions are the per-file ones added up |
| DiffMetrics.AggregateOrderIndependent | matrics/diffmetrics.go:122-141 | the aggregate does not depend on the order of the stats or of either tree |
| DiffMetrics.AggrDiffMetricsWhitespaceExcluded | matrics/diffmetrics.go:193-232 | the insertions and deletions are the as-written classified body lines of all parts after the first marker; with distinct names, each line total is the sum of the per-file non-"" counts; the file counts as in the inclusive aggregate |
| DiffMetrics.ExcludedAggregateAtMostIncluded | matrics/diffmetrics.go:227-228 | the whitespace-excluded line totals never exceed the inclusive ones |
| DiffMetrics.AggregateAddsPart | matrics/diffmetrics.go:199-221 | a patch text with one more file part at the end has exactly that part's counts added and the same line totals |

## Behaviour of the code the model keeps

- **Range direction.** `git rev-list begin..end` lists the commits reachable from `end` but not from `begin`. The code walks `endCommit` first and uses that walk as the ignore set of the `beginCommit` walk (gitfuncs/gitfuncs.go:356-360). So it returns reachable(beginCommit) minus reachable(endCommit), the opposite set; its own TODO at gitfuncs/gitfuncs.go:353 asks whether begin and end should be swapped. `RevList.ChildRangeIsEmpty` shows the consequence: a parent-to-child range is empty.
- **Blank deleted lines.** The code skips only segments equal to `""` (gitfuncs/gitfuncs.go:319). A deleted line of spaces or tabs is still listed, and the model does the same.
- **Excluded file LOC with repeated names.** `FileLOCFromTree` keeps the last matching file. `FileLOCFromTreeWhitespaceExcluded` adds up every matching file (gitfuncs/gitfuncs.go:157-167). The model keeps both behaviours.
- **Tie order.** The code sorts by committer time alone with `sort.Slice`, which is not stable, so commits with equal times come out in no fixed order. `SortByTimeDesc` is one such order, and the contracts state only sortedness and permutation.

## Left out

- `LastCommit`, `Branches`, `Tags`, `Checkout`, `FilesIttr`, `FileLOC`, `CommitDiff`, `RevisionCommits`, `Blame`: these are clone, checkout, reference resolution and blame calls into go-git. They are network and object-store I/O.
- go-git computations are inputs of the model:
  - the diff and its chunks;
  - `Patch.Stats()`;
  - `patch.String()`;
  - `f.Lines()`.
- `revlist.Objects` is modelled as a depth-first walk over a finite map of objects. It lists hashes in visit order, where go-git returns a hash set in map order. Only the order among equal committer times can depend on this.
- `GitObjects.Objects`: go-git also expands the ignore set to the objects reachable from it before walking. The model walks with the ignore set as given. In `RevList` the ignore set is a complete history, which is closed under children, so the expansion adds nothing there.
- Tree objects are flattened: a tree is a list of entries (path, hash). Nested trees and submodules are not modelled.
- Goroutines and channels in `LOCFilesFromTree` and `setFilesCounts` are replaced by sequential functions that compute the same values.
- Timing (`helper.Duration`, `helper.Track`), logging, and the second return value of `DeletedLineNumbers*` (the parent tree's hash string) are left out.
- Errors ignored by the code (`f.Lines()`, `changes.Patch()`) are not modelled.
- `helper.UniqueElements` is not part of this model. `Seqs.Unique` stands for it, and only its contract (duplicate-free, same elements) is relied on.
- DeletedLines.ClassifyPatches requires every non-Add chunk to have non-empty content and every patch to have a from- or to-file. The code indexes the last byte of the content and dereferences the to-file when the from-file is nil, and it panics otherwise.
- DeletedLines.DeletedLineNumbers: carries the same requirements as DeletedLines.ClassifyPatches, for the same panics.
- DeletedLines.DeletedLineNumbersWhitespaceExcluded: carries the same requirements as DeletedLines.ClassifyPatches, for the same panics.
- DiffMetrics.CalculateDiffMetricsWhitespaceExcluded requires the part after the file's marker to contain "+++". The code indexes the second piece of that split and panics without it, for example on a binary patch.
- DiffMetrics.AggrDiffMetricsWhitespaceExcluded: requires every part after the first "diff --git a/" marker to contain "+++", for the same reason: the code indexes the second piece of each part's split at "+++" and panics without it.
- Loc.ExcludedAtMostIncluded, Loc.TreeLOCIsSumOfFileLOC and DiffMetrics.AggrDiffMetricsWithWhitespace state their per-file relations only for trees with distinct file names, as git trees have. With repeated names the two per-file counters differ (see above).
- RevList.RevList: the begin and end hashes are compared as the strings given. The code converts them with `plumbing.NewHash` (gitfuncs/gitfuncs.go:356, 360), which hex-decodes the string. Upper-case digits then name the same hash as lower-case ones, and a short or malformed string becomes a partial, zero-padded hash.
- RevList.RangeHashes: compares the begin and end hashes as the strings given, without the `plumbing.NewHash` conversion (gitfuncs/gitfuncs.go:356, 360).
- RevList.GetDistinctAuthorsEMailIds: compares the begin and end hashes as the strings given, without the `plumbing.NewHash` conversion it inherits from `RevList`.
- DiffText.CorrectedCountsOfRenderedPart: requires no "+++" and no "diff --git" after the part's "+++" line. The code cuts the part at the next "+++", which an added line whose text starts with "++" contains, and at the next "diff --git"; what the counts are for such parts is not stated.
- Go `int` overflow is not modelled: counts are unbounded integers.

## Findings

| source | as written | input that shows it | evidently intended | confidence | as-written member | corrected member |
|---|---|---|---|---|---|---|
| matrics/diffmetrics.go:82-91 (also 210-219) | each line is trimmed with `TrimSpace` before its first character is tested for '+' or '-', so the leading space that marks an unchanged context line is removed first | a hunk with the unchanged line `-x` (rendered ` -x`): the counter reports one deletion, yet the hunk deletes nothing | test the marker in column 0, and skip lines whose remaining text is blank | not executed | DiffText.CountLinesAsWritten, DiffText.AsWrittenCountsContextLine | DiffText.CountLines, DiffText.CountLinesMatchesHunk, DiffText.CorrectedPartCountsMatchesHunk, DiffText.CorrectedCountsOfRenderedPart |

The per-file and aggregate whitespace-excluded metrics count as written (`DiffText.PartCounts`). `DiffText.CorrectedPartCounts` is the corrected per-part counter, and `DiffText.CorrectedPartCountsMatchesHunk` and `DiffText.CorrectedCountsOfRenderedPart` prove that on a file part with its "+++" line and "@@" hunk headers it counts exactly the non-blank added and removed lines.

=== FILE: deletedlines.dfy ===
/** The deleted-line classifier of `DeletedLineNumbers` and
    `DeletedLineNumbersWhitespaceExcluded` (gitfuncs/gitfuncs.go). For every
    file patch it walks the chunk sequence with a running line counter over
    the "before" file and records the 1-based number of every deleted line.

    The reference meaning is `BeforeFile`: the before file rebuilt from the
    chunks (Equal and Delete chunks, in order) with every line marked as kept
    or deleted. The classifier's result is the list of positions of the
    deleted lines of that file (`Positions`). */
module DeletedLines {
  import opened Wrappers
  import opened Strings

  /** go-git's diff operation codes: 0 = Equal, 1 = Add, 2 = Delete. */
  datatype Operation = Equal | Add | Delete

  datatype Chunk = Chunk(op: Operation, content: string)

  /** The classifier reads the last byte of the content of every Equal and
      Delete chunk (an empty one would be an out-of-range index). */
  predicate Readable(c: Chunk) {
    c.op == Add || |c.content| > 0
  }

  predicate AllReadable(chunks: seq<Chunk>) {
    forall i :: 0 <= i < |chunks| ==> Readable(chunks[i])
  }

  /** Number of lines in a chunk: the pieces of splitting at '\n', minus
      the empty piece after a trailing '\n'. */
  function LineCount(content: string): (n: nat)
    requires |content| > 0
    ensures n == CountChar(content, '\n') + (if content[|content| - 1] == '\n' then 0 else 1)
  {
    var pieces := Split(content, "\n");
    SplitCountChar(content, '\n');
    if content[|content| - 1] == '\n' then |pieces| - 1 else |pieces|
  }

  /** The lines of a chunk: the first `LineCount` pieces of the split. */
  function ChunkLines(content: string): (lines: seq<string>)
    requires |content| > 0
    ensures |lines| == LineCount(content)
    ensures forall i :: 0 <= i < |lines| ==> '\n' !in lines[i]
  {
    var pieces := Split(content, "\n");
    SplitCountChar(content, '\n');
    SplitNoNewline(content);
    pieces[..LineCount(content)]
  }

  lemma {:induction false} SplitNoNewline(s: string)
    ensures forall i :: 0 <= i < |Split(s, "\n")| ==> '\n' !in Split(s, "\n")[i]
    decreases |s|
  {
    if |s| >= 1 {
      SplitNoNewline(s[1..]);
      if s[..1] != "\n" {
        assert s[0] != '\n' by {
          assert s[..1][0] == s[0];
        }
      }
    }
  }

  /** One line of the before file and whether the patch deletes it. */
  datatype BeforeLine = BeforeLine(text: string, deleted: bool)

  /** The before-file lines a chunk stands for: none for an Add chunk, its
      lines for an Equal chunk (kept) and a Delete chunk (deleted). */
  function ChunkBefore(c: Chunk): (b: seq<BeforeLine>)
    requires Readable(c)
    ensures c.op == Add ==> b == []
    ensures c.op != Add ==> |b| == LineCount(c.content)
    ensures forall i :: 0 <= i < |b| ==> b[i].deleted == (c.op == Delete)
  {
    if c.op == Add then []
    else
      var lines := ChunkLines(c.content);
      seq(|lines|, i requires 0 <= i < |lines| => BeforeLine(lines[i], c.op == Delete))
  }

  /** The before file rebuilt from a chunk sequence. */
  function BeforeFile(chunks: seq<Chunk>): seq<BeforeLine>
    requires AllReadable(chunks)
  {
    if |chunks| == 0 then []
    else BeforeFile(chunks[..|chunks| - 1]) + ChunkBefore(chunks[|chunks| - 1])
  }

  /** Whether the classifier records a before-file line: every deleted line,
      or, when blank lines are excluded, every deleted line that is not "". */
  predicate Recorded(l: BeforeLine, excludeBlank: bool) {
    l.deleted && (!excludeBlank || l.text != "")
  }

  /** The 1-based numbers of the recorded lines of `b`, where `b` starts
      after the first `k` lines of the before file. */
  function Positions(b: seq<BeforeLine>, k: int, excludeBlank: bool): seq<int> {
    if |b| == 0 then []
    else (if Recorded(b[0], excludeBlank) then [k + 1] else []) + Positions(b[1..], k + 1, excludeBlank)
  }

  /** The deleted-line list the classifier is meant to produce for one file. */
  function DeletedLinesOf(chunks: seq<Chunk>, excludeBlank: bool): seq<int>
    requires AllReadable(chunks)
  {
    Positions(BeforeFile(chunks), 0, excludeBlank)
  }

  predicate StrictlyIncreasing(xs: seq<int>) {
    forall i, j :: 0 <= i < j < |xs| ==> xs[i] < xs[j]
  }

  // ---------------------------------------------------------------------
  // Facts about positions and the before file

  lemma {:induction false} PositionsAppend(b1: seq<BeforeLine>, b2: seq<BeforeLine>, k: int, excludeBlank: bool)
    ensures Positions(b1 + b2, k, excludeBlank)
         == Positions(b1, k, excludeBlank) + Positions(b2, k + |b1|, excludeBlank)
    decreases |b1|
  {
    if |b1| == 0 {
      assert b1 + b2 == b2;
    } else {
      var whole := b1 + b2;
      assert whole[0] == b1[0];
      assert whole[1..] == b1[1..] + b2;
      var head := if Recorded(b1[0], excludeBlank) then [k + 1] else [];
      assert Positions(whole, k, excludeBlank) == head + Positions(b1[1..] + b2, k + 1, excludeBlank);
      assert Positions(b1, k, excludeBlank) == head + Positions(b1[1..], k + 1, excludeBlank);
      PositionsAppend(b1[1..], b2, k + 1, excludeBlank);
    }
  }

  /** A number is listed exactly when it is the number of a recorded line. */
  lemma {:induction false} PositionsMembership(b: seq<BeforeLine>, k: int, excludeBlank: bool, n: int)
    ensures n in Positions(b, k, excludeBlank) <==> k + 1 <= n <= k + |b| && Recorded(b[n - k - 1], excludeBlank)
    decreases |b|
  {
    if |b| > 0 {
      PositionsMembership(b[1..], k + 1, excludeBlank, n);
      if k + 2 <= n <= k + |b| {
        assert b[1..][n - (k + 1) - 1] == b[n - k - 1];
      }
    }
  }

  /** The list is strictly increasing and lies within lines k+1 .. k+|b|. */
  lemma {:induction false} PositionsOrdered(b: seq<BeforeLine>, k: int, excludeBlank: bool)
    ensures StrictlyIncreasing(Positions(b, k, excludeBlank))
    ensures forall i :: 0 <= i < |Positions(b, k, excludeBlank)| ==> k + 1 <= Positions(b, k, excludeBlank)[i] <= k + |b|
    decreases |b|
  {
    if |b| > 0 {
      PositionsOrdered(b[1..], k + 1, excludeBlank);
    }
  }

  /** Number of deleted lines. */
  function DeletedCount(b: seq<BeforeLine>): nat {
    if |b| == 0 then 0 else (if b[0].deleted then 1 else 0) + DeletedCount(b[1..])
  }

  lemma {:induction false} DeletedCountAppend(b1: seq<BeforeLine>, b2: seq<BeforeLine>)
    ensures DeletedCount(b1 + b2) == DeletedCount(b1) + DeletedCount(b2)
    decreases |b1|
  {
    if |b1| == 0 {
      assert b1 + b2 == b2;
    } else {
      assert (b1 + b2)[1..] == b1[1..] + b2;
      DeletedCountAppend(b1[1..], b2);
    }
  }

  /** Without blank exclusion, every deleted line is listed once. */
  lemma {:induction false} PositionsLength(b: seq<BeforeLine>, k: int)
    ensures |Positions(b, k, false)| == DeletedCount(b)
    decreases |b|
  {
    if |b| > 0 {
      PositionsLength(b[1..], k + 1);
    }
  }

  /** The numbers of `ns` whose line in `w` is not "" (line n is w[n-1]). */
  function RemoveBlank(ns: seq<int>, w: seq<BeforeLine>): (r: seq<int>)
    requires forall i :: 0 <= i < |ns| ==> 1 <= ns[i] <= |w|
    ensures |r| <= |ns|
  {
    if |ns| == 0 then []
    else (if w[ns[0] - 1].text != "" then [ns[0]] else []) + RemoveBlank(ns[1..], w)
  }

  lemma {:induction false} RemoveBlankCons(n: int, tail: seq<int>, w: seq<BeforeLine>)
    requires 1 <= n <= |w| && forall i :: 0 <= i < |tail| ==> 1 <= tail[i] <= |w|
    ensures forall i :: 0 <= i < |[n] + tail| ==> 1 <= ([n] + tail)[i] <= |w|
    ensures RemoveBlank([n] + tail, w) == (if w[n - 1].text != "" then [n] else []) + RemoveBlank(tail, w)
  {
    var full := [n] + tail;
    assert full[0] == n && full[1..] == tail;
  }

  lemma {:induction false} PositionsRemoveBlank(w: seq<BeforeLine>, s: nat)
    requires s <= |w|
    ensures forall i :: 0 <= i < |Positions(w[s..], s, false)| ==> 1 <= Positions(w[s..], s, false)[i] <= |w|
    ensures Positions(w[s..], s, true) == RemoveBlank(Positions(w[s..], s, false), w)
    decreases |w| - s
  {
    PositionsOrdered(w[s..], s, false);
    if s < |w| {
      assert w[s..][0] == w[s];
      assert w[s..][1..] == w[s + 1..];
      PositionsRemoveBlank(w, s + 1);
      var tail := Positions(w[s + 1..], s + 1, false);
      var tailKept := Positions(w[s + 1..], s + 1, true);
      assert Positions(w[s..], s, true) == (if Recorded(w[s], true) then [s + 1] else []) + tailKept;
      if w[s].deleted {
        assert Positions(w[s..], s, false) == [s + 1] + tail;
        RemoveBlankCons(s + 1, tail, w);
      } else {
        assert Positions(w[s..], s, false) == tail;
      }
    }
  }

  lemma {:induction false} BeforeFileAppend(a: seq<Chunk>, b: seq<Chunk>)
    requires AllReadable(a) && AllReadable(b)
    ensures AllReadable(a + b)
    ensures BeforeFile(a + b) == BeforeFile(a) + BeforeFile(b)
    decreases |b|
  {
    AllReadableAppend(a, b);
    if |b| == 0 {
      assert a + b == a;
    } else {
      var b' := b[..|b| - 1];
      var ab := a + b;
      assert ab[..|ab| - 1] == a + b' && ab[|ab| - 1] == b[|b| - 1];
      BeforeFileSnoc(b);
      BeforeFileSnoc(ab);
      BeforeFileAppend(a, b');
      var fa, fb', cl := BeforeFile(a), BeforeFile(b'), ChunkBefore(b[|b| - 1]);
      assert (fa + fb') + cl == fa + (fb' + cl);
    }
  }

  /** The last chunk's lines come last. */
  lemma {:induction false} BeforeFileSnoc(xs: seq<Chunk>)
    requires |xs| > 0 && AllReadable(xs)
    ensures AllReadable(xs[..|xs| - 1])
    ensures BeforeFile(xs) == BeforeFile(xs[..|xs| - 1]) + ChunkBefore(xs[|xs| - 1])
  {
  }

  lemma {:induction false} AllReadableAppend(a: seq<Chunk>, b: seq<Chunk>)
    requires AllReadable(a) && AllReadable(b)
    ensures AllReadable(a + b)
  {
    forall i | 0 <= i < |a + b|
      ensures Readable((a + b)[i])
    {
      if i >= |a| {
        assert (a + b)[i] == b[i - |a|];
      } else {
        assert (a + b)[i] == a[i];
      }
    }
  }

  /** Sum of the line counts of the chunks of one kind. */
  function LinesOfKind(chunks: seq<Chunk>, op: Operation): nat
    requires AllReadable(chunks) && op != Add
  {
    if |chunks| == 0 then 0
    else
      var c := chunks[|chunks| - 1];
      LinesOfKind(chunks[..|chunks| - 1], op) + (if c.op == op then LineCount(c.content) else 0)
  }

  /** The before file has the Equal and Delete lines of the patch, and its
      deleted lines are exactly the Delete lines. */
  lemma {:induction false} BeforeFileSize(chunks: seq<Chunk>)
    requires AllReadable(chunks)
    ensures |BeforeFile(chunks)| == LinesOfKind(chunks, Equal) + LinesOfKind(chunks, Delete)
    ensures DeletedCount(BeforeFile(chunks)) == LinesOfKind(chunks, Delete)
    decreases |chunks|
  {
    if |chunks| > 0 {
      var c := chunks[|chunks| - 1];
      BeforeFileSize(chunks[..|chunks| - 1]);
      DeletedCountAppend(BeforeFile(chunks[..|chunks| - 1]), ChunkBefore(c));
      AllOfOneKindCount(ChunkBefore(c), c.op == Delete);
    }
  }

  lemma {:induction false} AllOfOneKindCount(b: seq<BeforeLine>, d: bool)
    requires forall i :: 0 <= i < |b| ==> b[i].deleted == d
    ensures DeletedCount(b) == if d then |b| else 0
    decreases |b|
  {
    if |b| > 0 {
      AllOfOneKindCount(b[1..], d);
    }
  }

  // ---------------------------------------------------------------------
  // Properties of the per-file deleted-line list

  /** The inclusive list is strictly increasing, starts at 1 or later, ends
      at the final counter value (Equal lines plus Delete lines) or earlier,
      and holds one number per Delete-chunk line. The whitespace-excluded
      list is strictly increasing and bounded in the same way. */
  lemma {:induction false} DeletedLinesShape(chunks: seq<Chunk>)
    requires AllReadable(chunks)
    ensures StrictlyIncreasing(DeletedLinesOf(chunks, false))
    ensures StrictlyIncreasing(DeletedLinesOf(chunks, true))
    ensures forall x :: x in DeletedLinesOf(chunks, false) ==>
              1 <= x <= LinesOfKind(chunks, Equal) + LinesOfKind(chunks, Delete)
    ensures forall x :: x in DeletedLinesOf(chunks, true) ==>
              1 <= x <= LinesOfKind(chunks, Equal) + LinesOfKind(chunks, Delete)
    ensures |DeletedLinesOf(chunks, false)| == LinesOfKind(chunks, Delete)
  {
    var b := BeforeFile(chunks);
    BeforeFileSize(chunks);
    PositionsOrdered(b, 0, false);
    PositionsOrdered(b, 0, true);
    PositionsLength(b, 0);
  }

  /** Line n is listed exactly when line n of the before file is deleted
      (and, for the whitespace-excluded list, not ""). */
  lemma {:induction false} DeletedLinesExact(chunks: seq<Chunk>, excludeBlank: bool, n: int)
    requires AllReadable(chunks)
    ensures n in DeletedLinesOf(chunks, excludeBlank) <==>
              1 <= n <= |BeforeFile(chunks)| && Recorded(BeforeFile(chunks)[n - 1], excludeBlank)
  {
    var b := BeforeFile(chunks);
    PositionsMembership(b, 0, excludeBlank, n);
    assert n - 0 - 1 == n - 1;
  }

  /** The whitespace-excluded list is the inclusive list with exactly the
      numbers of the "" lines removed. */
  lemma {:induction false} ExcludedIsFilteredInclusive(chunks: seq<Chunk>)
    requires AllReadable(chunks)
    ensures forall i :: 0 <= i < |DeletedLinesOf(chunks, false)| ==>
              1 <= DeletedLinesOf(chunks, false)[i] <= |BeforeFile(chunks)|
    ensures DeletedLinesOf(chunks, true) == RemoveBlank(DeletedLinesOf(chunks, false), BeforeFile(chunks))
  {
    var w := BeforeFile(chunks);
    assert w[0..] == w;
    PositionsRemoveBlank(w, 0);
  }

  /** An Add chunk changes neither the before file nor any deleted-line list,
      wherever it sits in the chunk sequence. */
  lemma {:induction false} AddChunkInvisible(before: seq<Chunk>, c: Chunk, after: seq<Chunk>, excludeBlank: bool)
    requires AllReadable(before) && AllReadable(after) && c.op == Add
    ensures AllReadable(before + [c] + after) && AllReadable(before + after)
    ensures BeforeFile(before + [c] + after) == BeforeFile(before + after)
    ensures DeletedLinesOf(before + [c] + after, excludeBlank) == DeletedLinesOf(before + after, excludeBlank)
  {
    AddChunkAppended(before, c);
    BeforeFileAppend(before + [c], after);
    BeforeFileAppend(before, after);
  }

  lemma {:induction false} AddChunkAppended(before: seq<Chunk>, c: Chunk)
    requires AllReadable(before) && c.op == Add
    ensures AllReadable(before + [c])
    ensures BeforeFile(before + [c]) == BeforeFile(before)
  {
    assert (before + [c])[..|before|] == before;
  }

  // ---------------------------------------------------------------------
  // The classifier itself

  /** A file patch: go-git's `Files()` pair (nil when the file is absent on
      that side) and its chunks. */
  datatype FilePatch = FilePatch(from: Option<string>, to: Option<string>, chunks: seq<Chunk>)

  /** The classifier dereferences `to` when `from` is nil, so one side must be present. */
  predicate ValidPatch(p: FilePatch) {
    (p.from.Some? || p.to.Some?) && AllReadable(p.chunks)
  }

  predicate AllValid(patches: seq<FilePatch>) {
    forall i :: 0 <= i < |patches| ==> ValidPatch(patches[i])
  }

  /** The map key of a patch: the from-path, or the to-path for a new file. */
  function Key(p: FilePatch): (k: string)
    requires p.from.Some? || p.to.Some?
    ensures p.from.Some? ==> k == p.from.value
    ensures p.from.None? ==> k == p.to.value
  {
    if p.from.None? then p.to.value else p.from.value
  }

  /** No patch after `i` and before `p` has the same key as patch `i`. */
  predicate LastBefore(patches: seq<FilePatch>, i: nat, p: nat)
    requires AllValid(patches) && i < p <= |patches|
  {
    forall j :: i < j < p ==> Key(patches[j]) != Key(patches[i])
  }

  /** No later patch has the same key as patch `i`: its list is the one kept. */
  predicate LastForKey(patches: seq<FilePatch>, i: nat)
    requires AllValid(patches) && i < |patches|
  {
    LastBefore(patches, i, |patches|)
  }

  /** What one more chunk adds to the counter and to the list. */
  lemma {:induction false} ChunkLoopStep(chunks: seq<Chunk>, ci: nat, excludeBlank: bool)
    requires AllReadable(chunks) && ci < |chunks|
    ensures AllReadable(chunks[..ci]) && AllReadable(chunks[..ci + 1]) && Readable(chunks[ci])
    ensures |BeforeFile(chunks[..ci + 1])| == |BeforeFile(chunks[..ci])| + |ChunkBefore(chunks[ci])|
    ensures Positions(BeforeFile(chunks[..ci + 1]), 0, excludeBlank)
         == Positions(BeforeFile(chunks[..ci]), 0, excludeBlank)
            + Positions(ChunkBefore(chunks[ci]), |BeforeFile(chunks[..ci])|, excludeBlank)
  {
    var pre1 := chunks[..ci + 1];
    assert AllReadable(pre1) by {
      forall k | 0 <= k < |pre1|
        ensures Readable(pre1[k])
      {
        assert pre1[k] == chunks[k];
      }
    }
    assert pre1[..ci] == chunks[..ci] && pre1[ci] == chunks[ci];
    BeforeFileSnoc(pre1);
    var before, added := BeforeFile(chunks[..ci]), ChunkBefore(chunks[ci]);
    assert BeforeFile(pre1) == before + added;
    PositionsAppend(before, added, 0, excludeBlank);
  }

  lemma {:induction false} BeforeFileStep(chunks: seq<Chunk>, ci: nat)
    requires AllReadable(chunks) && ci < |chunks|
    ensures BeforeFile(chunks[..ci + 1]) == BeforeFile(chunks[..ci]) + ChunkBefore(chunks[ci])
  {
    assert chunks[..ci + 1][..ci] == chunks[..ci];
  }

  /** The inner loop for one Delete chunk: numbers counter+1 .. counter+patchLen,
      skipping the lines that are "" when asked. */
  method RecordDeleteChunk(content: string, lineCounter: int, excludeBlank: bool) returns (added: seq<int>, patchLen: int)
    requires |content| > 0
    ensures patchLen == LineCount(content)
    ensures added == Positions(ChunkBefore(Chunk(Delete, content)), lineCounter, excludeBlank)
  {
    var deletedPatch := Split(content, "\n");
    if content[|content| - 1] == '\n' {
      patchLen := |deletedPatch| - 1;
    } else {
      patchLen := |deletedPatch|;
    }
    ghost var cb := ChunkBefore(Chunk(Delete, content));
    DeletedChunkLines(content);
    added := [];
    for i := 1 to patchLen + 1
      invariant added == Positions(cb[..i - 1], lineCounter, excludeBlank)
    {
      PositionsSnoc(cb, i - 1, lineCounter, excludeBlank);
      if !excludeBlank || deletedPatch[i - 1] != "" {
        added := added + [lineCounter + i];
      }
    }
    assert cb[..patchLen] == cb;
  }

  /** The before lines of a Delete chunk are the pieces of its split, all deleted. */
  lemma {:induction false} DeletedChunkLines(content: string)
    requires |content| > 0
    ensures |ChunkBefore(Chunk(Delete, content))| == LineCount(content) <= |Split(content, "\n")|
    ensures forall k :: 0 <= k < LineCount(content) ==>
              ChunkBefore(Chunk(Delete, content))[k] == BeforeLine(Split(content, "\n")[k], true)
  {
  }

  /** Extending a prefix of `b` by one line adds that line's number when it is recorded. */
  lemma {:induction false} PositionsSnoc(b: seq<BeforeLine>, n: nat, k: int, excludeBlank: bool)
    requires n < |b|
    ensures Positions(b[..n + 1], k, excludeBlank)
         == Positions(b[..n], k, excludeBlank) + (if Recorded(b[n], excludeBlank) then [k + n + 1] else [])
  {
    assert b[..n + 1] == b[..n] + [b[n]];
    PositionsAppend(b[..n], [b[n]], k, excludeBlank);
    assert [b[n]][1..] == [];
  }

  /** An Equal chunk only advances the counter, by its number of lines. */
  method EqualChunkLength(content: string) returns (patchLen: int)
    requires |content| > 0
    ensures patchLen == LineCount(content)
  {
    var pieces := Split(content, "\n");
    if content[|content| - 1] == '\n' {
      patchLen := |pieces| - 1;
    } else {
      patchLen := |pieces|;
    }
  }

  /** One chunk of the per-file loop: an Equal chunk advances the counter, a
      Delete chunk records its lines and advances it, an Add chunk does neither. */
  method ProcessChunk(chunk: Chunk, lineCounter: int, excludeBlank: bool) returns (added: seq<int>, patchLen: int)
    requires Readable(chunk)
    ensures patchLen == |ChunkBefore(chunk)|
    ensures added == Positions(ChunkBefore(chunk), lineCounter, excludeBlank)
  {
    added, patchLen := [], 0;
    if chunk.op == Equal {
      NothingRecorded(ChunkBefore(chunk), lineCounter, excludeBlank);
      patchLen := EqualChunkLength(chunk.content);
    }
    if chunk.op == Delete {
      added, patchLen := RecordDeleteChunk(chunk.content, lineCounter, excludeBlank);
    }
  }

  /** The per-file loop of the classifier: a counter over the before file,
      advanced by Equal and Delete chunks; each Delete chunk first records
      counter+1 .. counter+patchLen (skipping "" lines when asked). */
  method FileDeletedLines(chunks: seq<Chunk>, excludeBlank: bool) returns (deletedLines: seq<int>)
    requires AllReadable(chunks)
    ensures deletedLines == DeletedLinesOf(chunks, excludeBlank)
  {
    var lineCounter := 0;
    deletedLines := [];
    for ci := 0 to |chunks|
      invariant AllReadable(chunks[..ci])
      invariant lineCounter == |BeforeFile(chunks[..ci])|
      invariant deletedLines == Positions(BeforeFile(chunks[..ci]), 0, excludeBlank)
    {
      ChunkLoopStep(chunks, ci, excludeBlank);
      var added, patchLen := ProcessChunk(chunks[ci], lineCounter, excludeBlank);
      deletedLines := deletedLines + added;
      lineCounter := lineCounter + patchLen;
    }
    assert chunks[..|chunks|] == chunks;
  }

  lemma {:induction false} NothingRecorded(b: seq<BeforeLine>, k: int, excludeBlank: bool)
    requires forall i :: 0 <= i < |b| ==> !b[i].deleted
    ensures Positions(b, k, excludeBlank) == []
    decreases |b|
  {
    if |b| > 0 {
      NothingRecorded(b[1..], k + 1, excludeBlank);
    }
  }

  /** The lists of patches 0 .. p-1 that no later one of them overrides. */
  ghost predicate KeptLists(patches: seq<FilePatch>, p: nat, m: map<string, seq<int>>, excludeBlank: bool)
    requires AllValid(patches) && p <= |patches|
  {
    forall i :: 0 <= i < p && LastBefore(patches, i, p) ==>
      Key(patches[i]) in m && m[Key(patches[i])] == DeletedLinesOf(patches[i].chunks, excludeBlank)
  }

  lemma {:induction false} KeptListsStep(patches: seq<FilePatch>, p: nat, m: map<string, seq<int>>, excludeBlank: bool)
    requires AllValid(patches) && p < |patches|
    requires KeptLists(patches, p, m, excludeBlank)
    ensures KeptLists(patches, p + 1, m[Key(patches[p]) := DeletedLinesOf(patches[p].chunks, excludeBlank)], excludeBlank)
  {
    var m' := m[Key(patches[p]) := DeletedLinesOf(patches[p].chunks, excludeBlank)];
    forall i | 0 <= i < p + 1 && LastBefore(patches, i, p + 1)
      ensures Key(patches[i]) in m' && m'[Key(patches[i])] == DeletedLinesOf(patches[i].chunks, excludeBlank)
    {
      if i < p {
        var ki := Key(patches[i]);
        assert Key(patches[p]) != ki;
        assert LastBefore(patches, i, p);
        assert m'[ki] == m[ki];
      }
    }
  }

  /** The outer loop: one list per file patch, stored under its key; a later
      patch with the same key replaces an earlier one. */
  method ClassifyPatches(patches: seq<FilePatch>, excludeBlank: bool) returns (m: map<string, seq<int>>)
    requires AllValid(patches)
    ensures forall k :: k in m <==> exists i :: 0 <= i < |patches| && Key(patches[i]) == k
    ensures forall i :: 0 <= i < |patches| && LastForKey(patches, i) ==>
              m[Key(patches[i])] == DeletedLinesOf(patches[i].chunks, excludeBlank)
  {
    m := map[];
    for p := 0 to |patches|
      invariant forall k :: k in m <==> exists i :: 0 <= i < p && Key(patches[i]) == k
      invariant KeptLists(patches, p, m, excludeBlank)
    {
      var deletedLines := FileDeletedLines(patches[p].chunks, excludeBlank);
      KeptListsStep(patches, p, m, excludeBlank);
      m := m[Key(patches[p]) := deletedLines];
    }
  }

  /** `DeletedLineNumbers`: every deleted line of every file patch. */
  method DeletedLineNumbers(patches: seq<FilePatch>) returns (m: map<string, seq<int>>)
    requires AllValid(patches)
    ensures forall k :: k in m <==> exists i :: 0 <= i < |patches| && Key(patches[i]) == k
    ensures forall i :: 0 <= i < |patches| && LastForKey(patches, i) ==>
              m[Key(patches[i])] == DeletedLinesOf(patches[i].chunks, false)
  {
    m := ClassifyPatches(patches, false);
  }

  /** `DeletedLineNumbersWhitespaceExcluded`: as above, skipping lines that are "". */
  method DeletedLineNumbersWhitespaceExcluded(patches: seq<FilePatch>) returns (m: map<string, seq<int>>)
    requires AllValid(patches)
    ensures forall k :: k in m <==> exists i :: 0 <= i < |patches| && Key(patches[i]) == k
    ensures forall i :: 0 <= i < |patches| && LastForKey(patches, i) ==>
              m[Key(patches[i])] == DeletedLinesOf(patches[i].chunks, true)
  {
    m := ClassifyPatches(patches, true);
  }
}

=== FILE: diffmetrics.dfy ===
/** Churn metrics for one commit against its parent (matrics/diffmetrics.go):
    per-file metrics, with whitespace (from go-git's per-file stats) and
    without (from the rendered patch text), and the aggregates over all files,
    with the new-file and deleted-file counts. The commit diff itself is an
    input: the stats list, the rendered patch text and the two trees. */
module DiffMetrics {
  import opened Wrappers
  import opened Seqs
  import opened Strings
  import opened Loc
  import opened DiffText

  datatype DiffMetrics = DiffMetrics(insertions: int, deletions: int, linesBefore: int, linesAfter: int)

  datatype FileDiffMetrics = FileDiffMetrics(metrics: DiffMetrics, file: string, newFile: bool, deleteFile: bool)

  datatype AggrDiffMetrics = AggrDiffMetrics(metrics: DiffMetrics, filesCount: int, newFiles: int, deletedFiles: int)

  /** One entry of go-git's `Patch.Stats()`. */
  datatype FileStat = FileStat(name: string, addition: int, deletion: int)

  datatype MetricsError = FileNotInDiff(path: string)

  /** The stats entry named `path`; when several are, the last one. */
  function StatFor(stats: seq<FileStat>, path: string): (r: Option<FileStat>)
    ensures r.None? <==> forall i :: 0 <= i < |stats| ==> stats[i].name != path
    ensures r.Some? ==> exists i :: 0 <= i < |stats| && stats[i] == r.value && LastStat(stats, path, i)
  {
    if |stats| == 0 then None
    else if stats[|stats| - 1].name == path then
      assert LastStat(stats, path, |stats| - 1);
      Some(stats[|stats| - 1])
    else
      var front := stats[..|stats| - 1];
      var r := StatFor(front, path);
      if r.Some? then
        var i :| 0 <= i < |front| && front[i] == r.value && LastStat(front, path, i);
        assert LastStat(stats, path, i);
        r
      else r
  }

  /** Entry `i` is named `path` and no later entry is. */
  predicate LastStat(stats: seq<FileStat>, path: string, i: nat)
    requires i < |stats|
  {
    stats[i].name == path && forall j :: i < j < |stats| ==> stats[j].name != path
  }

  /** The new-file and deleted-file flags, derived from the line counts. */
  function WithFlags(m: DiffMetrics, file: string): (r: FileDiffMetrics)
    ensures r.metrics == m && r.file == file
    ensures r.newFile <==> m.linesBefore == 0 && m.linesAfter != 0
    ensures r.deleteFile <==> m.linesBefore != 0 && m.linesAfter == 0
    ensures !(r.newFile && r.deleteFile)
  {
    FileDiffMetrics(m, file, m.linesBefore == 0 && m.linesAfter != 0, m.linesBefore != 0 && m.linesAfter == 0)
  }

  /** `CalculateDiffMetricsWithWhitespace`: insertions and deletions from
      the file's stats entry (0 and 0 without one), lines from the trees. */
  function CalculateDiffMetricsWithWhitespace(stats: seq<FileStat>, parentTree: Tree, tree: Tree, filePath: string)
    : (r: FileDiffMetrics)
    ensures r.file == filePath
    ensures (forall i :: 0 <= i < |stats| ==> stats[i].name != filePath) ==>
              r.metrics.insertions == 0 && r.metrics.deletions == 0
    ensures forall i :: 0 <= i < |stats| && LastStat(stats, filePath, i) ==>
              r.metrics.insertions == stats[i].addition && r.metrics.deletions == stats[i].deletion
    ensures r.metrics.linesBefore == FileLOCFromTree(parentTree, filePath)
    ensures r.metrics.linesAfter == FileLOCFromTree(tree, filePath)
    ensures r.newFile <==> r.metrics.linesBefore == 0 && r.metrics.linesAfter != 0
    ensures r.deleteFile <==> r.metrics.linesBefore != 0 && r.metrics.linesAfter == 0
    ensures !(r.newFile && r.deleteFile)
  {
    var stat := StatFor(stats, filePath);
    var insertions := if stat.Some? then stat.value.addition else 0;
    var deletions := if stat.Some? then stat.value.deletion else 0;
    WithFlags(DiffMetrics(insertions, deletions, FileLOCFromTree(parentTree, filePath), FileLOCFromTree(tree, filePath)),
              filePath)
  }

  /** The flags say what happened to the file: a new file is present in the
      commit's tree, a deleted one in the parent's; a file with lines that is
      absent from the parent is new, and one absent from the commit is deleted. */
  lemma {:induction false} FlagsFollowFilePresence(stats: seq<FileStat>, parentTree: Tree, tree: Tree, path: string)
    ensures CalculateDiffMetricsWithWhitespace(stats, parentTree, tree, path).newFile ==> !Absent(tree, path)
    ensures CalculateDiffMetricsWithWhitespace(stats, parentTree, tree, path).deleteFile ==> !Absent(parentTree, path)
    ensures forall i :: 0 <= i < |tree| && Absent(parentTree, path) && LastNamed(tree, path, i) && |tree[i].lines| > 0 ==>
              CalculateDiffMetricsWithWhitespace(stats, parentTree, tree, path).newFile
    ensures forall i :: 0 <= i < |parentTree| && Absent(tree, path) && LastNamed(parentTree, path, i) && |parentTree[i].lines| > 0 ==>
              CalculateDiffMetricsWithWhitespace(stats, parentTree, tree, path).deleteFile
  {
  }

  /** The marker the per-file whitespace-excluded metrics split the patch at. */
  function FileMarkerFor(filePath: string): (m: string)
    ensures |m| > 0
  {
    FileMarker + filePath
  }

  /** The part of the patch text after the file's marker can be read: it
      has the "+++" header the source indexes past. */
  predicate FilePartReadable(patchText: string, filePath: string) {
    |Split(patchText, FileMarkerFor(filePath))| >= 2 ==> HasHeader(Split(patchText, FileMarkerFor(filePath))[1])
  }

  /** `CalculateDiffMetricsWhitespaceExcluded`: counts from the part of the
      patch text after the file's marker; an error when the marker is missing. */
  function CalculateDiffMetricsWhitespaceExcluded(patchText: string, parentTree: Tree, tree: Tree, filePath: string)
    : (r: Result<FileDiffMetrics, MetricsError>)
    requires FilePartReadable(patchText, filePath)
    ensures r.Failure? <==> !Contains(patchText, FileMarkerFor(filePath))
    ensures r.Failure? ==> r.error == FileNotInDiff(filePath)
    ensures r.Success? ==> r.value.file == filePath
    ensures r.Success? ==> r.value.metrics.linesBefore == FileLOCFromTreeWhitespaceExcluded(parentTree, filePath)
    ensures r.Success? ==> r.value.metrics.linesAfter == FileLOCFromTreeWhitespaceExcluded(tree, filePath)
    ensures r.Success? ==> |Split(patchText, FileMarkerFor(filePath))| >= 2 &&
                           r.value.metrics.insertions + r.value.metrics.deletions
                           <= |FileDiffLines(Split(patchText, FileMarkerFor(filePath))[1])|
    ensures r.Success? ==> |Split(patchText, FileMarkerFor(filePath))| >= 2 &&
                           r.value.metrics.insertions
                           == Sum(FileDiffLines(Split(patchText, FileMarkerFor(filePath))[1]), InsertionMark)
    ensures r.Success? ==> |Split(patchText, FileMarkerFor(filePath))| >= 2 &&
                           r.value.metrics.deletions
                           == Sum(FileDiffLines(Split(patchText, FileMarkerFor(filePath))[1]), DeletionMark)
    ensures r.Success? ==> (r.value.newFile <==> r.value.metrics.linesBefore == 0 && r.value.metrics.linesAfter != 0)
    ensures r.Success? ==> (r.value.deleteFile <==> r.value.metrics.linesBefore != 0 && r.value.metrics.linesAfter == 0)
    ensures r.Success? ==> !(r.value.newFile && r.value.deleteFile)
  {
    var fileDiffTexts := Split(patchText, FileMarkerFor(filePath));
    SplitFindsSeparator(patchText, FileMarkerFor(filePath));
    if |fileDiffTexts| < 2 then Failure(FileNotInDiff(filePath))
    else
      var counts := PartCounts(fileDiffTexts[1]);
      Success(WithFlags(DiffMetrics(counts.insertions, counts.deletions,
                                    FileLOCFromTreeWhitespaceExcluded(parentTree, filePath),
                                    FileLOCFromTreeWhitespaceExcluded(tree, filePath)),
                        filePath))
  }

  // ---------------------------------------------------------------------
  // New and deleted files

  function SetOf(xs: seq<string>): set<string> {
    set x | x in xs
  }

  function AbsentFrom(ys: set<string>): string -> int {
    (f: string) => if f in ys then 0 else 1
  }

  /** How many entries of `xs` (duplicates counted) are not in `ys`. */
  function CountAbsent(xs: seq<string>, ys: set<string>): int {
    Sum(xs, AbsentFrom(ys))
  }

  lemma {:induction false} CountAbsentBounds(xs: seq<string>, ys: set<string>)
    ensures 0 <= CountAbsent(xs, ys) <= |xs|
    ensures (forall i :: 0 <= i < |xs| ==> xs[i] in ys) ==> CountAbsent(xs, ys) == 0
    decreases |xs|
  {
    if |xs| > 0 {
      CountAbsentBounds(xs[1..], ys);
      assert forall i :: 1 <= i < |xs| ==> xs[1..][i - 1] == xs[i];
    }
  }

  lemma {:induction false} CountAbsentPrefix(xs: seq<string>, ys: set<string>, j: nat)
    requires j < |xs|
    ensures CountAbsent(xs[..j + 1], ys) == CountAbsent(xs[..j], ys) + (if xs[j] in ys then 0 else 1)
  {
    assert xs[..j + 1] == xs[..j] + [xs[j]];
    SumAppend(xs[..j], [xs[j]], AbsentFrom(ys));
  }

  /** For duplicate-free `xs`, the entries that are present in `ys` are the
      common elements. */
  lemma {:induction false} CountPresentIsCommon(xs: seq<string>, ys: set<string>)
    requires Distinct(xs)
    ensures |xs| - CountAbsent(xs, ys) == |SetOf(xs) * ys|
    decreases |xs|
  {
    if |xs| > 0 {
      var tail := xs[1..];
      assert Distinct(tail);
      CountPresentIsCommon(tail, ys);
      assert CountAbsent(xs, ys) == AbsentFrom(ys)(xs[0]) + CountAbsent(tail, ys);
      HeadNotInTail(xs);
      CommonStep(xs[0], SetOf(tail), ys);
      assert SetOf(xs) == {xs[0]} + SetOf(tail);
    }
  }

  lemma {:induction false} HeadNotInTail(xs: seq<string>)
    requires Distinct(xs) && |xs| > 0
    ensures xs[0] !in SetOf(xs[1..])
  {
    forall k | 0 <= k < |xs[1..]|
      ensures xs[1..][k] != xs[0]
    {
      assert xs[1..][k] == xs[k + 1];
    }
  }

  lemma {:induction false} CommonStep(x: string, rest: set<string>, ys: set<string>)
    requires x !in rest
    ensures |({x} + rest) * ys| == |rest * ys| + (if x in ys then 1 else 0)
  {
    if x in ys {
      assert ({x} + rest) * ys == {x} + rest * ys;
    } else {
      assert ({x} + rest) * ys == rest * ys;
    }
  }

  /** Go's `m[k]` on a `map[string]bool`: false for a missing key. */
  function Lookup(m: map<string, bool>, k: string): bool {
    if k in m then m[k] else false
  }

  /** `getNewFilesCount`: the after-tree names missing from the before tree. */
  method GetNewFilesCount(beforeFiles: seq<string>, afterFiles: seq<string>) returns (count: int)
    ensures count == CountAbsent(afterFiles, SetOf(beforeFiles))
  {
    var beforeSet: map<string, bool> := map[];
    for i := 0 to |beforeFiles|
      invariant forall f :: Lookup(beforeSet, f) <==> f in beforeFiles[..i]
    {
      assert beforeFiles[..i + 1] == beforeFiles[..i] + [beforeFiles[i]];
      beforeSet := beforeSet[beforeFiles[i] := true];
    }
    assert beforeFiles[..|beforeFiles|] == beforeFiles;
    count := 0;
    for j := 0 to |afterFiles|
      invariant count == CountAbsent(afterFiles[..j], SetOf(beforeFiles))
    {
      CountAbsentPrefix(afterFiles, SetOf(beforeFiles), j);
      if !Lookup(beforeSet, afterFiles[j]) {
        count := count + 1;
      }
    }
    assert afterFiles[..|afterFiles|] == afterFiles;
  }

  /** `getDeletedFilesCount`: the before-tree names missing from the after tree. */
  method GetDeletedFilesCount(beforeFiles: seq<string>, afterFiles: seq<string>) returns (count: int)
    ensures count == CountAbsent(beforeFiles, SetOf(afterFiles))
  {
    var afterSet: map<string, bool> := map[];
    for i := 0 to |afterFiles|
      invariant forall f :: Lookup(afterSet, f) <==> f in afterFiles[..i]
    {
      assert afterFiles[..i + 1] == afterFiles[..i] + [afterFiles[i]];
      afterSet := afterSet[afterFiles[i] := true];
    }
    assert afterFiles[..|afterFiles|] == afterFiles;
    count := 0;
    for j := 0 to |beforeFiles|
      invariant count == CountAbsent(beforeFiles[..j], SetOf(afterFiles))
    {
      CountAbsentPrefix(beforeFiles, SetOf(afterFiles), j);
      if !Lookup(afterSet, beforeFiles[j]) {
        count := count + 1;
      }
    }
    assert beforeFiles[..|beforeFiles|] == beforeFiles;
  }

  datatype FileCounts = FileCounts(filesCount: int, newFiles: int, deletedFiles: int)

  /** `setFilesCounts`: the number of after files, and how many of them are
      new, and how many before files are gone. */
  function SetFilesCounts(beforeFiles: seq<string>, afterFiles: seq<string>): (r: FileCounts)
    ensures r.filesCount == |afterFiles|
    ensures r.newFiles == CountAbsent(afterFiles, SetOf(beforeFiles))
    ensures r.deletedFiles == CountAbsent(beforeFiles, SetOf(afterFiles))
    ensures 0 <= r.newFiles <= r.filesCount
    ensures 0 <= r.deletedFiles <= |beforeFiles|
    ensures r.newFiles == 0 <==> forall i :: 0 <= i < |afterFiles| ==> afterFiles[i] in beforeFiles
    ensures r.deletedFiles == 0 <==> forall i :: 0 <= i < |beforeFiles| ==> beforeFiles[i] in afterFiles
  {
    CountAbsentBounds(afterFiles, SetOf(beforeFiles));
    CountAbsentBounds(beforeFiles, SetOf(afterFiles));
    CountAbsentZero(afterFiles, SetOf(beforeFiles));
    CountAbsentZero(beforeFiles, SetOf(afterFiles));
    FileCounts(|afterFiles|, CountAbsent(afterFiles, SetOf(beforeFiles)), CountAbsent(beforeFiles, SetOf(afterFiles)))
  }

  lemma {:induction false} CountAbsentZero(xs: seq<string>, ys: set<string>)
    ensures CountAbsent(xs, ys) == 0 ==> forall i :: 0 <= i < |xs| ==> xs[i] in ys
    decreases |xs|
  {
    if |xs| > 0 {
      CountAbsentBounds(xs[1..], ys);
      CountAbsentZero(xs[1..], ys);
      assert forall i :: 1 <= i < |xs| ==> xs[1..][i - 1] == xs[i];
    }
  }

  /** With duplicate-free lists, the files kept are counted the same from
      both sides: FilesCount - NewFiles = len(before) - DeletedFiles. */
  lemma {:induction false} FileCountsBalance(beforeFiles: seq<string>, afterFiles: seq<string>)
    requires Distinct(beforeFiles) && Distinct(afterFiles)
    ensures SetFilesCounts(beforeFiles, afterFiles).filesCount - SetFilesCounts(beforeFiles, afterFiles).newFiles
         == |beforeFiles| - SetFilesCounts(beforeFiles, afterFiles).deletedFiles
    ensures SetFilesCounts(beforeFiles, afterFiles).filesCount - SetFilesCounts(beforeFiles, afterFiles).newFiles
         == |SetOf(beforeFiles) * SetOf(afterFiles)|
  {
    CountPresentIsCommon(afterFiles, SetOf(beforeFiles));
    CountPresentIsCommon(beforeFiles, SetOf(afterFiles));
    assert SetOf(afterFiles) * SetOf(beforeFiles) == SetOf(beforeFiles) * SetOf(afterFiles);
  }

  /** Reordering either list leaves all three counts unchanged. */
  lemma {:induction false} FileCountsOrderIndependent(b1: seq<string>, b2: seq<string>, a1: seq<string>, a2: seq<string>)
    requires multiset(b1) == multiset(b2) && multiset(a1) == multiset(a2)
    ensures SetFilesCounts(b1, a1) == SetFilesCounts(b2, a2)
  {
    assert |a1| == |multiset(a1)| == |a2|;
    assert SetOf(b1) == SetOf(b2) by {
      forall x
        ensures x in SetOf(b1) <==> x in SetOf(b2)
      {
        assert x in b1 <==> x in multiset(b1);
        assert x in b2 <==> x in multiset(b2);
      }
    }
    assert SetOf(a1) == SetOf(a2) by {
      forall x
        ensures x in SetOf(a1) <==> x in SetOf(a2)
      {
        assert x in a1 <==> x in multiset(a1);
        assert x in a2 <==> x in multiset(a2);
      }
    }
    SumPermutation(a1, a2, AbsentFrom(SetOf(b1)));
    SumPermutation(b1, b2, AbsentFrom(SetOf(a1)));
  }

  // ---------------------------------------------------------------------
  // Aggregates

  function Addition(s: FileStat): int {
    s.addition
  }

  function Deletion(s: FileStat): int {
    s.deletion
  }

  /** `AggrDiffMetricsWithWhitespace`: totals over all stats entries and
      over both trees, and the file counts of the two name lists. */
  function AggrDiffMetricsWithWhitespace(stats: seq<FileStat>, parentTree: Tree, tree: Tree): (r: AggrDiffMetrics)
    ensures DistinctNames(parentTree) ==> r.metrics.linesBefore == SumFileLOC(parentTree, Names(parentTree), false)
    ensures DistinctNames(tree) ==> r.metrics.linesAfter == SumFileLOC(tree, Names(tree), false)
    ensures r.filesCount == |tree|
    ensures r.newFiles == CountAbsent(Names(tree), SetOf(Names(parentTree)))
    ensures r.deletedFiles == CountAbsent(Names(parentTree), SetOf(Names(tree)))
    ensures 0 <= r.newFiles <= r.filesCount && 0 <= r.deletedFiles <= |parentTree|
  {
    var before := LOCFilesFromTree(parentTree);
    var after := LOCFilesFromTree(tree);
    TreeLOCWhenDistinct(parentTree);
    TreeLOCWhenDistinct(tree);
    var counts := SetFilesCounts(before.files, after.files);
    AggrDiffMetrics(DiffMetrics(Sum(stats, Addition), Sum(stats, Deletion), before.loc, after.loc),
                    counts.filesCount, counts.newFiles, counts.deletedFiles)
  }

  lemma {:induction false} TreeLOCWhenDistinct(tree: Tree)
    ensures DistinctNames(tree) ==> LOCFilesFromTree(tree).loc == SumFileLOC(tree, Names(tree), false)
    ensures DistinctNames(tree) ==> LOCFilesFromTreeWhitespaceExcluded(tree).loc == SumFileLOC(tree, Names(tree), true)
  {
    if DistinctNames(tree) {
      TreeLOCIsSumOfFileLOC(tree);
    }
  }

  /** The per-file insertions and deletions of the listed files, added up. */
  function SumPerFile(stats: seq<FileStat>, parentTree: Tree, tree: Tree, names: seq<string>): Counts2 {
    if |names| == 0 then Counts2(0, 0)
    else
      var m := CalculateDiffMetricsWithWhitespace(stats, parentTree, tree, names[0]).metrics;
      var rest := SumPerFile(stats, parentTree, tree, names[1..]);
      Counts2(m.insertions + rest.insertions, m.deletions + rest.deletions)
  }

  /** Insertion and deletion totals of stats entries. Unlike `Counts`, which
      counts lines of the patch text, these add up go-git's `int` fields. */
  datatype Counts2 = Counts2(insertions: int, deletions: int)

  predicate DistinctStats(stats: seq<FileStat>) {
    forall i, j :: 0 <= i < j < |stats| ==> stats[i].name != stats[j].name
  }

  /** The names of the stats entries, in order (what `Loc.Names` is for the
      files of a tree). */
  function StatNames(stats: seq<FileStat>): (names: seq<string>)
    ensures |names| == |stats|
    ensures forall i :: 0 <= i < |stats| ==> names[i] == stats[i].name
  {
    if |stats| == 0 then [] else [stats[0].name] + StatNames(stats[1..])
  }

  lemma {:induction false} SuffixPerFile(stats: seq<FileStat>, parentTree: Tree, tree: Tree, s: nat)
    requires DistinctStats(stats) && s <= |stats|
    ensures SumPerFile(stats, parentTree, tree, StatNames(stats)[s..])
         == Counts2(Sum(stats[s..], Addition), Sum(stats[s..], Deletion))
    decreases |stats| - s
  {
    if s < |stats| {
      SuffixPerFile(stats, parentTree, tree, s + 1);
      assert stats[s..][1..] == stats[s + 1..];
      assert StatNames(stats)[s..][1..] == StatNames(stats)[s + 1..];
      assert LastStat(stats, stats[s].name, s);
    }
  }

  /** With one stats entry per file, the aggregate insertions and deletions
      are the per-file ones added up over the files of the patch. */
  lemma {:induction false} AggregateIsSumOfPerFile(stats: seq<FileStat>, parentTree: Tree, tree: Tree)
    requires DistinctStats(stats)
    ensures SumPerFile(stats, parentTree, tree, StatNames(stats))
         == Counts2(AggrDiffMetricsWithWhitespace(stats, parentTree, tree).metrics.insertions,
                    AggrDiffMetricsWithWhitespace(stats, parentTree, tree).metrics.deletions)
  {
    SuffixPerFile(stats, parentTree, tree, 0);
    assert stats[0..] == stats;
    assert StatNames(stats)[0..] == StatNames(stats);
  }

  /** The order in which go-git lists stats and files does not matter. */
  lemma {:induction false} AggregateOrderIndependent(s1: seq<FileStat>, s2: seq<FileStat>, p1: Tree, p2: Tree, t1: Tree, t2: Tree)
    requires multiset(s1) == multiset(s2) && multiset(p1) == multiset(p2) && multiset(t1) == multiset(t2)
    ensures AggrDiffMetricsWithWhitespace(s1, p1, t1) == AggrDiffMetricsWithWhitespace(s2, p2, t2)
  {
    SumPermutation(s1, s2, Addition);
    SumPermutation(s1, s2, Deletion);
    TreeLOCOrderIndependent(p1, p2);
    TreeLOCOrderIndependent(t1, t2);
    FileCountsOrderIndependent(Names(p1), Names(p2), Names(t1), Names(t2));
  }

  /** `AggrDiffMetricsWhitespaceExcluded`: counts summed over the file parts
      after the first "diff --git a/" marker, non-"" lines of both trees, and
      the file counts of the two name lists. */
  function AggrDiffMetricsWhitespaceExcluded(patchText: string, parentTree: Tree, tree: Tree): (r: AggrDiffMetrics)
    requires PartsHaveHeaders(Split(patchText, FileMarker)[1..])
    ensures r.metrics.insertions == Sum(PartLines(Split(patchText, FileMarker)[1..]), InsertionMark)
    ensures r.metrics.deletions == Sum(PartLines(Split(patchText, FileMarker)[1..]), DeletionMark)
    ensures DistinctNames(parentTree) ==> r.metrics.linesBefore == SumFileLOC(parentTree, Names(parentTree), true)
    ensures DistinctNames(tree) ==> r.metrics.linesAfter == SumFileLOC(tree, Names(tree), true)
    ensures r.filesCount == |tree|
    ensures r.newFiles == CountAbsent(Names(tree), SetOf(Names(parentTree)))
    ensures r.deletedFiles == CountAbsent(Names(parentTree), SetOf(Names(tree)))
    ensures 0 <= r.newFiles <= r.filesCount && 0 <= r.deletedFiles <= |parentTree|
  {
    var fileDiffTexts := Split(patchText, FileMarker)[1..];
    var counts := SumParts(fileDiffTexts);
    SumPartsIsLineCount(fileDiffTexts);
    CountLinesAsWrittenIsSum(PartLines(fileDiffTexts));
    var before := LOCFilesFromTreeWhitespaceExcluded(parentTree);
    var after := LOCFilesFromTreeWhitespaceExcluded(tree);
    TreeLOCWhenDistinct(parentTree);
    TreeLOCWhenDistinct(tree);
    var files := SetFilesCounts(before.files, after.files);
    AggrDiffMetrics(DiffMetrics(counts.insertions, counts.deletions, before.loc, after.loc),
                    files.filesCount, files.newFiles, files.deletedFiles)
  }

  /** Leaving out the "" lines never raises a tree's line total: the
      whitespace-excluded totals are at most the inclusive ones. */
  lemma {:induction false} ExcludedAggregateAtMostIncluded(patchText: string, stats: seq<FileStat>, parentTree: Tree, tree: Tree)
    requires PartsHaveHeaders(Split(patchText, FileMarker)[1..])
    ensures AggrDiffMetricsWhitespaceExcluded(patchText, parentTree, tree).metrics.linesBefore
         <= AggrDiffMetricsWithWhitespace(stats, parentTree, tree).metrics.linesBefore
    ensures AggrDiffMetricsWhitespaceExcluded(patchText, parentTree, tree).metrics.linesAfter
         <= AggrDiffMetricsWithWhitespace(stats, parentTree, tree).metrics.linesAfter
  {
    SumMonotone(parentTree, NonBlankTotal, LineTotal);
    SumMonotone(tree, NonBlankTotal, LineTotal);
  }

  /** One more file part at the end of the patch text adds exactly that
      part's counts to the totals; the line totals and file counts, which come
      from the trees, stay. */
  lemma {:induction false} AggregateAddsPart(text1: string, text2: string, p: string, parentTree: Tree, tree: Tree)
    requires PartsHaveHeaders(Split(text1, FileMarker)[1..]) && HasHeader(p)
    requires Split(text2, FileMarker) == Split(text1, FileMarker) + [p]
    ensures PartsHaveHeaders(Split(text2, FileMarker)[1..])
    ensures AggrDiffMetricsWhitespaceExcluded(text2, parentTree, tree).metrics.insertions
         == AggrDiffMetricsWhitespaceExcluded(text1, parentTree, tree).metrics.insertions + PartCounts(p).insertions
    ensures AggrDiffMetricsWhitespaceExcluded(text2, parentTree, tree).metrics.deletions
         == AggrDiffMetricsWhitespaceExcluded(text1, parentTree, tree).metrics.deletions + PartCounts(p).deletions
    ensures AggrDiffMetricsWhitespaceExcluded(text2, parentTree, tree).metrics.linesBefore
         == AggrDiffMetricsWhitespaceExcluded(text1, parentTree, tree).metrics.linesBefore
    ensures AggrDiffMetricsWhitespaceExcluded(text2, parentTree, tree).metrics.linesAfter
         == AggrDiffMetricsWhitespaceExcluded(text1, parentTree, tree).metrics.linesAfter
  {
    var p1 := Split(text1, FileMarker);
    SplitFindsSeparator(text1, FileMarker);
    assert Split(text2, FileMarker)[1..] == p1[1..] + [p];
    SumPartsSnoc(p1[1..], p);
  }
}

=== FILE: difftext.dfy ===
/** The rendered-patch counters of the whitespace-excluded metrics
    (matrics/diffmetrics.go): the patch text is cut at "diff --git a/"
    markers, each file's part after its "+++" header is split into lines,
    and lines are classified as insertions or deletions.

    A line is classified after `strings.TrimSpace`, so an unchanged context
    line (rendered with a leading space) whose text starts with '+' or '-'
    is counted too. `CountLinesAsWritten` models that loop and is what the
    metrics count with; `CountLines` tests the marker in column 0 instead
    and is proved to count exactly the non-blank added and removed lines of
    a rendered hunk body. */
module DiffText {
  import opened Seqs
  import opened Strings

  datatype Counts = Counts(insertions: nat, deletions: nat)

  function Plus(a: Counts, b: Counts): Counts {
    Counts(a.insertions + b.insertions, a.deletions + b.deletions)
  }

  // ---------------------------------------------------------------------
  // Line classification, as written

  predicate InsertionAsWritten(line: string) {
    var t := TrimSpace(line);
    HasPrefix(t, "+") && t != "+"
  }

  predicate DeletionAsWritten(line: string) {
    var t := TrimSpace(line);
    HasPrefix(t, "-") && t != "-"
  }

  /** The counting loop as written: each line is trimmed, then inspected for a
      leading '+' or '-' that is not the whole line. */
  function CountLinesAsWritten(lines: seq<string>): (c: Counts)
    ensures c.insertions + c.deletions <= |lines|
  {
    if |lines| == 0 then Counts(0, 0)
    else
      var rest := CountLinesAsWritten(lines[1..]);
      var t := TrimSpace(lines[0]);
      Counts(rest.insertions + (if HasPrefix(t, "+") && t != "+" then 1 else 0),
             rest.deletions + (if HasPrefix(t, "-") && t != "-" then 1 else 0))
  }

  /** 1 for a line the loop counts as an insertion, else 0. */
  function InsertionMark(line: string): int {
    if InsertionAsWritten(line) then 1 else 0
  }

  /** 1 for a line the loop counts as a deletion, else 0. */
  function DeletionMark(line: string): int {
    if DeletionAsWritten(line) then 1 else 0
  }

  /** The loop counts, over the whole list, exactly the lines classified as
      insertions and exactly those classified as deletions. */
  lemma {:induction false} CountLinesAsWrittenIsSum(lines: seq<string>)
    ensures CountLinesAsWritten(lines).insertions == Sum(lines, InsertionMark)
    ensures CountLinesAsWritten(lines).deletions == Sum(lines, DeletionMark)
    decreases |lines|
  {
    if |lines| > 0 {
      CountLinesAsWrittenIsSum(lines[1..]);
    }
  }

  /** Counting two runs of lines one after the other adds their counts. */
  lemma {:induction false} CountLinesAsWrittenAppend(a: seq<string>, b: seq<string>)
    ensures CountLinesAsWritten(a + b) == Plus(CountLinesAsWritten(a), CountLinesAsWritten(b))
  {
    CountLinesAsWrittenIsSum(a);
    CountLinesAsWrittenIsSum(b);
    CountLinesAsWrittenIsSum(a + b);
    SumAppend(a, b, InsertionMark);
    SumAppend(a, b, DeletionMark);
  }

  /** No line is both an insertion and a deletion; a line is an insertion
      exactly when its trimmed form starts with '+' and is longer than "+". */
  lemma {:induction false} AsWrittenLineClassification(line: string)
    ensures !(InsertionAsWritten(line) && DeletionAsWritten(line))
    ensures CountLinesAsWritten([line]).insertions == (if InsertionAsWritten(line) then 1 else 0)
    ensures CountLinesAsWritten([line]).deletions == (if DeletionAsWritten(line) then 1 else 0)
    ensures InsertionAsWritten(line) <==> |TrimSpace(line)| >= 2 && TrimSpace(line)[0] == '+'
  {
    assert [line][1..] == [];
    MarkerTest(TrimSpace(line));
  }

  lemma {:induction false} MarkerTest(t: string)
    ensures (HasPrefix(t, "+") && t != "+") <==> |t| >= 2 && t[0] == '+'
    ensures !(HasPrefix(t, "+") && HasPrefix(t, "-"))
  {
    if |t| >= 1 {
      assert t[..1][0] == t[0];
    }
    if |t| >= 2 && t[0] == '+' {
      assert t[..1] == "+";
    }
  }

  // ---------------------------------------------------------------------
  // Line classification, corrected

  /** The marker in column 0 decides; lines whose remaining text is blank
      are left out. */
  function CountLines(lines: seq<string>): (c: Counts)
    ensures c.insertions + c.deletions <= |lines|
  {
    if |lines| == 0 then Counts(0, 0)
    else
      var rest := CountLines(lines[1..]);
      var l := lines[0];
      Counts(rest.insertions + (if |l| > 0 && l[0] == '+' && !IsBlank(l[1..]) then 1 else 0),
             rest.deletions + (if |l| > 0 && l[0] == '-' && !IsBlank(l[1..]) then 1 else 0))
  }

  /** A line of a file's hunks as the unified-diff encoder renders it: a
      hunk header ("@@ -a,b +c,d @@" and what follows it), or a line of the
      hunk body. */
  datatype DiffLine = HunkHeader(text: string) | Context(text: string) | Added(text: string) | Removed(text: string)

  function Render(l: DiffLine): string {
    match l
    case HunkHeader(t) => "@@" + t
    case Context(t) => [' '] + t
    case Added(t) => ['+'] + t
    case Removed(t) => ['-'] + t
  }

  /** The hunks of a file: every line rendered and ended by '\n'. */
  function RenderBody(ls: seq<DiffLine>): string {
    if |ls| == 0 then "" else Render(ls[0]) + "\n" + RenderBody(ls[1..])
  }

  predicate SingleLines(ls: seq<DiffLine>) {
    forall i :: 0 <= i < |ls| ==> '\n' !in ls[i].text
  }

  /** What the whitespace-excluded counts are meant to be: the added and the
      removed lines that are not blank. */
  function ChangedNonBlank(ls: seq<DiffLine>): Counts {
    if |ls| == 0 then Counts(0, 0)
    else
      var rest := ChangedNonBlank(ls[1..]);
      Counts(rest.insertions + (if ls[0].Added? && !IsBlank(ls[0].text) then 1 else 0),
             rest.deletions + (if ls[0].Removed? && !IsBlank(ls[0].text) then 1 else 0))
  }

  lemma {:induction false} SplitRenderedBody(ls: seq<DiffLine>)
    requires SingleLines(ls)
    ensures Split(RenderBody(ls), "\n") == RenderedLines(ls) + [""]
    decreases |ls|
  {
    if |ls| == 0 {
      assert Split("", "\n") == [""];
    } else {
      var first := Render(ls[0]);
      assert '\n' !in first by {
        if ls[0].HunkHeader? {
          assert first == "@@" + ls[0].text;
        } else {
          assert first == [first[0]] + ls[0].text;
        }
      }
      SplitLine(first, '\n', RenderBody(ls[1..]));
      SplitRenderedBody(ls[1..]);
    }
  }

  function RenderedLines(ls: seq<DiffLine>): (r: seq<string>)
    ensures |r| == |ls|
    ensures forall i :: 0 <= i < |ls| ==> r[i] == Render(ls[i])
  {
    if |ls| == 0 then [] else [Render(ls[0])] + RenderedLines(ls[1..])
  }

  lemma {:induction false} CountRenderedLines(ls: seq<DiffLine>)
    ensures CountLines(RenderedLines(ls)) == ChangedNonBlank(ls)
    decreases |ls|
  {
    if |ls| > 0 {
      CountRenderedLines(ls[1..]);
      assert RenderedLines(ls)[1..] == RenderedLines(ls[1..]);
      var l := Render(ls[0]);
      if ls[0].HunkHeader? {
        assert l[0] == '@';
      } else {
        assert l[1..] == ls[0].text;
      }
    }
  }

  /** The corrected counter, run on a rendered hunk body split at '\n',
      counts exactly the non-blank added and removed lines. */
  lemma {:induction false} CountLinesMatchesHunk(ls: seq<DiffLine>)
    requires SingleLines(ls)
    ensures CountLines(Split(RenderBody(ls), "\n")) == ChangedNonBlank(ls)
  {
    SplitRenderedBody(ls);
    CountAppendEmpty(RenderedLines(ls));
    CountRenderedLines(ls);
  }

  lemma {:induction false} CountAppendEmpty(lines: seq<string>)
    ensures CountLines(lines + [""]) == CountLines(lines)
    decreases |lines|
  {
    if |lines| == 0 {
      assert CountLines([""][1..]) == Counts(0, 0);
    } else {
      assert (lines + [""])[1..] == lines[1..] + [""];
      CountAppendEmpty(lines[1..]);
    }
  }

  lemma {:induction false} BlankPrefixBound(s: string, i: nat, k: nat)
    requires i <= |s| && IsBlank(s[..i]) && k < |s| && !IsSpace(s[k])
    ensures i <= k
  {
    forall m | 0 <= m < i
      ensures IsSpace(s[m])
    {
      assert s[..i][m] == s[m];
    }
  }

  lemma {:induction false} BlankSuffixBound(s: string, j: nat, k: nat)
    requires j <= |s| && IsBlank(s[j..]) && k < |s| && !IsSpace(s[k])
    ensures k < j
  {
    forall m | j <= m < |s|
      ensures IsSpace(s[m])
    {
      assert s[j..][m - j] == s[m];
    }
  }

  lemma {:induction false} NonSpaceIndex(s: string) returns (k: nat)
    requires !IsBlank(s)
    ensures k < |s| && !IsSpace(s[k])
  {
    k :| k < |s| && !IsSpace(s[k]);
  }

  /** A line that is one space, then '-', then something not blank, trims to
      a text that starts with '-' and is longer than "-". */
  lemma {:induction false} TrimmedContextLine(line: string, k: nat)
    requires |line| >= 2 && line[0] == ' ' && line[1] == '-'
    requires 2 <= k < |line| && !IsSpace(line[k])
    ensures |TrimSpace(line)| >= 2 && TrimSpace(line)[0] == '-'
  {
    var trimmed := TrimSpace(line);
    var i, j :| 0 <= i <= j <= |line| && trimmed == line[i..j] && IsBlank(line[..i]) && IsBlank(line[j..]);
    BlankPrefixBound(line, i, 1);
    BlankSuffixBound(line, j, k);
  }

  lemma {:induction false} DeletionMarker(trimmed: string)
    requires |trimmed| >= 2 && trimmed[0] == '-'
    ensures HasPrefix(trimmed, "-") && trimmed != "-" && !HasPrefix(trimmed, "+")
  {
    assert trimmed[..1] == "-";
  }

  /** A context line whose text is '-' followed by something not blank is
      classified as a deletion by the as-written counter. */
  lemma {:induction false} TrimContextLine(t: string)
    requires |t| >= 1 && t[0] == '-' && !IsBlank(t[1..])
    ensures DeletionAsWritten([' '] + t) && !InsertionAsWritten([' '] + t)
  {
    var line := [' '] + t;
    var k := NonSpaceIndex(t[1..]);
    assert line[k + 2] == t[1..][k];
    TrimmedContextLine(line, k + 2);
    DeletionMarker(TrimSpace(line));
  }

  /** A single rendered line splits into itself and the empty tail. */
  lemma {:induction false} SplitSingleLine(l: DiffLine)
    requires '\n' !in l.text
    ensures Split(RenderBody([l]), "\n") == [Render(l), ""]
  {
    var ls := [l];
    assert ls[1..] == [];
    assert SingleLines(ls);
    SplitRenderedBody(ls);
    assert RenderedLines(ls) == [Render(l)];
  }

  lemma {:induction false} CountLineThenEmptyAsWritten(line: string)
    ensures CountLinesAsWritten([line, ""]).insertions == (if InsertionAsWritten(line) then 1 else 0)
    ensures CountLinesAsWritten([line, ""]).deletions == (if DeletionAsWritten(line) then 1 else 0)
  {
    var lines := [line, ""];
    assert lines[1..] == [""];
    assert [""][1..] == [];
    assert TrimSpace("") == "";
  }

  /** The as-written counter counts an unchanged line of a hunk whose text
      starts with '-' (rendered " -...") as a deletion, although the hunk
      deletes nothing; "-x" is such a text. */
  lemma {:induction false} AsWrittenCountsContextLine(t: string)
    requires |t| >= 1 && t[0] == '-' && !IsBlank(t[1..]) && '\n' !in t
    ensures ChangedNonBlank([Context(t)]) == Counts(0, 0)
    ensures CountLinesAsWritten(Split(RenderBody([Context(t)]), "\n")) == Counts(0, 1)
  {
    assert [Context(t)][1..] == [];
    SplitSingleLine(Context(t));
    TrimContextLine(t);
    CountLineThenEmptyAsWritten([' '] + t);
  }

  // ---------------------------------------------------------------------
  // Cutting the patch text into file parts

  const FileMarker := "diff --git a/"

  /** The source indexes the second piece of the split at "+++". */
  predicate HasHeader(part: string) {
    Contains(part, "+++")
  }

  /** The lines of one file's part: after its "+++" header, up to the next
      "diff --git", split at '\n'. */
  function FileDiffLines(part: string): seq<string>
    requires HasHeader(part)
  {
    SplitFindsSeparator(part, "+++");
    var afterHeader := Split(part, "+++")[1];
    Split(Split(afterHeader, "diff --git")[0], "\n")
  }

  /** The counts for one file part, as the loop computes them: the body
      lines classified as insertions and as deletions. */
  function PartCounts(part: string): (c: Counts)
    requires HasHeader(part)
    ensures c.insertions == Sum(FileDiffLines(part), InsertionMark)
    ensures c.deletions == Sum(FileDiffLines(part), DeletionMark)
    ensures c.insertions + c.deletions <= |FileDiffLines(part)|
  {
    CountLinesAsWrittenIsSum(FileDiffLines(part));
    CountLinesAsWritten(FileDiffLines(part))
  }

  /** The counts for one file part with the corrected classifier. */
  function CorrectedPartCounts(part: string): (c: Counts)
    requires HasHeader(part)
    ensures c.insertions + c.deletions <= |FileDiffLines(part)|
  {
    CountLines(FileDiffLines(part))
  }

  /** On a file part as the encoder writes it -- the rest of the "+++" line
      (" b/<path>" or " /dev/null"), then the rendered hunks -- the corrected
      counts are the hunks' non-blank added and removed lines. */
  lemma {:induction false} CorrectedPartCountsMatchesHunk(part: string, headerRest: string, ls: seq<DiffLine>)
    requires HasHeader(part) && SingleLines(ls)
    requires |headerRest| > 0 && headerRest[0] == ' ' && '\n' !in headerRest
    requires FileDiffLines(part) == Split(headerRest + "\n" + RenderBody(ls), "\n")
    ensures CorrectedPartCounts(part) == ChangedNonBlank(ls)
  {
    SplitLine(headerRest, '\n', RenderBody(ls));
    assert headerRest + "\n" + RenderBody(ls) == headerRest + ['\n'] + RenderBody(ls);
    var lines := [headerRest] + Split(RenderBody(ls), "\n");
    assert lines[1..] == Split(RenderBody(ls), "\n");
    CountLinesMatchesHunk(ls);
  }

  /** A part whose only "+++" is the one that opens the "+++" line, and
      which holds no further "diff --git", has as body lines exactly the lines
      after that "+++". */
  lemma {:induction false} FileDiffLinesOfPart(pre: string, after: string)
    requires forall i :: 0 <= i < |pre| ==> !OccursAt(pre + "+++" + after, "+++", i)
    requires !Contains(after, "+++") && !Contains(after, "diff --git")
    ensures HasHeader(pre + "+++" + after)
    ensures FileDiffLines(pre + "+++" + after) == Split(after, "\n")
  {
    SplitAtFirst(pre, "+++", after);
    SplitWithoutOccurrence(after, "+++");
    SplitWithoutOccurrence(after, "diff --git");
    SplitFindsSeparator(pre + "+++" + after, "+++");
  }

  /** A whole file part as the encoder writes it -- the "diff --git" and
      "---" lines in `pre`, then "+++", the rest of that line, and the
      rendered hunks: the corrected counts are the hunks' non-blank added and
      removed lines. */
  lemma {:induction false} CorrectedCountsOfRenderedPart(pre: string, headerRest: string, ls: seq<DiffLine>)
    requires SingleLines(ls)
    requires |headerRest| > 0 && headerRest[0] == ' ' && '\n' !in headerRest
    requires forall i :: 0 <= i < |pre| ==> !OccursAt(pre + "+++" + (headerRest + "\n" + RenderBody(ls)), "+++", i)
    requires !Contains(headerRest + "\n" + RenderBody(ls), "+++")
    requires !Contains(headerRest + "\n" + RenderBody(ls), "diff --git")
    ensures HasHeader(pre + "+++" + (headerRest + "\n" + RenderBody(ls)))
    ensures CorrectedPartCounts(pre + "+++" + (headerRest + "\n" + RenderBody(ls))) == ChangedNonBlank(ls)
  {
    var after := headerRest + "\n" + RenderBody(ls);
    FileDiffLinesOfPart(pre, after);
    CorrectedPartCountsMatchesHunk(pre + "+++" + after, headerRest, ls);
  }

  /** The parts after the first marker, each of which the source reads a
      header of. */
  predicate PartsHaveHeaders(parts: seq<string>) {
    forall i :: 0 <= i < |parts| ==> HasHeader(parts[i])
  }

  /** A part's insertions and deletions as whole-sequence summands; a part
      without a header contributes nothing (the source would not reach it). */
  function PartInsertions(part: string): int {
    if HasHeader(part) then PartCounts(part).insertions else 0
  }

  function PartDeletions(part: string): int {
    if HasHeader(part) then PartCounts(part).deletions else 0
  }

  /** The counts of the file parts, one after another, added up. */
  function SumParts(parts: seq<string>): (c: Counts)
    requires PartsHaveHeaders(parts)
    ensures c.insertions == Sum(parts, PartInsertions)
    ensures c.deletions == Sum(parts, PartDeletions)
  {
    if |parts| == 0 then Counts(0, 0) else Plus(PartCounts(parts[0]), SumParts(parts[1..]))
  }

  /** One more file part adds exactly its own counts. */
  lemma {:induction false} SumPartsSnoc(parts: seq<string>, p: string)
    requires PartsHaveHeaders(parts) && HasHeader(p)
    ensures PartsHaveHeaders(parts + [p])
    ensures SumParts(parts + [p]) == Plus(SumParts(parts), PartCounts(p))
  {
    var q := parts + [p];
    forall i | 0 <= i < |q|
      ensures HasHeader(q[i])
    {
      if i < |parts| {
        assert q[i] == parts[i];
      } else {
        assert q[i] == p;
      }
    }
    SumAppend(parts, [p], PartInsertions);
    SumAppend(parts, [p], PartDeletions);
    assert [p][1..] == [];
  }

  /** The body lines of the parts, one part after another. */
  function PartLines(parts: seq<string>): seq<string>
    requires PartsHaveHeaders(parts)
  {
    if |parts| == 0 then [] else FileDiffLines(parts[0]) + PartLines(parts[1..])
  }

  /** The summed counts are what the loop counts over all the parts' body
      lines, one part after another. */
  lemma {:induction false} SumPartsIsLineCount(parts: seq<string>)
    requires PartsHaveHeaders(parts)
    ensures SumParts(parts) == CountLinesAsWritten(PartLines(parts))
  {
    if |parts| > 0 {
      SumPartsIsLineCount(parts[1..]);
      CountLinesAsWrittenAppend(FileDiffLines(parts[0]), PartLines(parts[1..]));
    }
  }
}

=== FILE: gitobjects.dfy ===
/** The slice of a git object store the range enumerator needs, and the
    reachable-object walk of go-git's `revlist.Objects`, which
    gitfuncs/gitfuncs.go calls but does not contain. Objects are linked by
    hashes: a commit to its tree and parents, a tree to its entries. */
module GitObjects {
  import opened Wrappers
  import opened Seqs

  type Hash = string

  /** Author or committer: e-mail and Unix time of the signature. */
  datatype Signature = Signature(name: string, email: string, when: int)

  datatype Commit = Commit(hash: Hash, author: Signature, committer: Signature, treeHash: Hash, parents: seq<Hash>)

  /** A tree entry, flattened to its full path. */
  datatype TreeEntry = TreeEntry(path: string, hash: Hash)

  datatype Object = CommitObject(commit: Commit) | TreeObject(entries: seq<TreeEntry>) | BlobObject

  type Store = map<Hash, Object>

  datatype Error = ObjectNotFound(hash: Hash)

  /** The hashes an object refers to. */
  function Children(o: Object): seq<Hash> {
    match o
    case CommitObject(c) => [c.treeHash] + c.parents
    case TreeObject(entries) => EntryHashes(entries)
    case BlobObject => []
  }

  function EntryHashes(entries: seq<TreeEntry>): (hs: seq<Hash>)
    ensures |hs| == |entries|
    ensures forall i :: 0 <= i < |entries| ==> hs[i] == entries[i].hash
  {
    if |entries| == 0 then [] else [entries[0].hash] + EntryHashes(entries[1..])
  }

  predicate Edge(store: Store, a: Hash, b: Hash) {
    a in store && b in Children(store[a])
  }

  /** A walk along edges; every node but the last is a stored object. */
  ghost predicate IsPath(store: Store, p: seq<Hash>) {
    |p| > 0 && forall i :: 0 <= i < |p| - 1 ==> Edge(store, p[i], p[i + 1])
  }

  ghost predicate Avoids(p: seq<Hash>, ignore: set<Hash>) {
    forall i :: 0 <= i < |p| ==> p[i] !in ignore
  }

  /** `h` can be reached from one of `starts` without passing an ignored hash. */
  ghost predicate ReachableAvoiding(store: Store, starts: seq<Hash>, ignore: set<Hash>, h: Hash) {
    exists p :: IsPath(store, p) && p[0] in starts && p[|p| - 1] == h && Avoids(p, ignore)
  }

  /** `h` can be reached from `start` (the start itself included). */
  ghost predicate Reachable(store: Store, start: Hash, h: Hash) {
    ReachableAvoiding(store, [start], {}, h)
  }

  /** A set from which no edge leaves. */
  ghost predicate Closed(store: Store, r: set<Hash>) {
    forall h, c :: h in r && h in store && c in Children(store[h]) ==> c in r
  }

  /** The loop invariant of the walk: `seen` is the ignore set plus the
      visited objects, every visited or pending hash is reachable (or
      ignored), and every start and every child of a visited object is
      either seen or still pending. */
  ghost predicate WalkInvariant(store: Store, starts: seq<Hash>, ignore: set<Hash>,
                                seen: set<Hash>, result: seq<Hash>, stack: seq<Hash>)
  {
    && (forall x :: x in seen <==> x in ignore || x in result)
    && Distinct(result)
    && (forall h :: h in result ==> h in store && h !in ignore && ReachableAvoiding(store, starts, ignore, h))
    && (forall h :: h in stack ==> h in ignore || ReachableAvoiding(store, starts, ignore, h))
    && (forall s :: s in starts ==> s in seen || s in stack)
    && (forall h, c :: h in result && c in Children(store[h]) ==> c in seen || c in stack)
  }

  lemma {:induction false} WalkStart(store: Store, starts: seq<Hash>, ignore: set<Hash>)
    ensures WalkInvariant(store, starts, ignore, ignore, [], starts)
  {
    forall s | s in starts && s !in ignore
      ensures ReachableAvoiding(store, starts, ignore, s)
    {
      assert IsPath(store, [s]) && Avoids([s], ignore);
    }
  }

  lemma {:induction false} WalkSkip(store: Store, starts: seq<Hash>, ignore: set<Hash>,
                 seen: set<Hash>, result: seq<Hash>, stack: seq<Hash>)
    requires stack != [] && stack[|stack| - 1] in seen
    requires WalkInvariant(store, starts, ignore, seen, result, stack)
    ensures WalkInvariant(store, starts, ignore, seen, result, stack[..|stack| - 1])
  {
    assert stack == stack[..|stack| - 1] + [stack[|stack| - 1]];
  }

  lemma {:induction false} WalkVisit(store: Store, starts: seq<Hash>, ignore: set<Hash>,
                  seen: set<Hash>, result: seq<Hash>, stack: seq<Hash>)
    requires stack != [] && stack[|stack| - 1] !in seen && stack[|stack| - 1] in store
    requires WalkInvariant(store, starts, ignore, seen, result, stack)
    ensures var h := stack[|stack| - 1];
            WalkInvariant(store, starts, ignore, seen + {h}, result + [h], stack[..|stack| - 1] + Children(store[h]))
  {
    var h := stack[|stack| - 1];
    var rest := stack[..|stack| - 1];
    var stack' := rest + Children(store[h]);
    assert stack == rest + [h];
    VisitKeepsResult(store, starts, ignore, seen, result, stack);
    VisitKeepsReach(store, starts, ignore, result, stack, h, rest, stack');
    VisitKeepsFrontier(store, seen, result, stack, h, rest, stack');
  }

  /** Visited and pending hashes stay reachable (or ignored). */
  lemma {:induction false} VisitKeepsReach(store: Store, starts: seq<Hash>, ignore: set<Hash>, result: seq<Hash>,
                                           stack: seq<Hash>, h: Hash, rest: seq<Hash>, stack': seq<Hash>)
    requires h in store && stack == rest + [h] && stack' == rest + Children(store[h])
    requires h !in ignore && ReachableAvoiding(store, starts, ignore, h)
    requires forall y :: y in result ==> y in store && y !in ignore && ReachableAvoiding(store, starts, ignore, y)
    requires forall y :: y in stack ==> y in ignore || ReachableAvoiding(store, starts, ignore, y)
    ensures forall y :: y in result + [h] ==> y in store && y !in ignore && ReachableAvoiding(store, starts, ignore, y)
    ensures forall y :: y in stack' ==> y in ignore || ReachableAvoiding(store, starts, ignore, y)
  {
    ChildrenReachable(store, starts, ignore, h);
    assert forall x :: x in rest ==> x in stack;
    assert forall x :: x in stack' ==> x in rest || x in Children(store[h]);
  }

  /** Every start and every child of a visited hash stays seen or pending
      once `h`, popped from the stack, is visited and its children pushed. */
  lemma {:induction false} VisitKeepsFrontier(store: Store, seen: set<Hash>, result: seq<Hash>, stack: seq<Hash>,
                                              h: Hash, rest: seq<Hash>, stack': seq<Hash>)
    requires h in store && stack == rest + [h] && stack' == rest + Children(store[h])
    requires forall y :: y in result ==> y in store
    requires forall y, c :: y in result && c in Children(store[y]) ==> c in seen || c in stack
    ensures forall x :: x in stack ==> x in seen + {h} || x in stack'
    ensures forall y, c :: y in result + [h] && c in Children(store[y]) ==> c in seen + {h} || c in stack'
  {
    assert forall x :: x in stack ==> x == h || x in rest;
    assert forall x :: x in rest ==> x in stack';
    assert forall c :: c in Children(store[h]) ==> c in stack';
  }

  lemma {:induction false} VisitKeepsResult(store: Store, starts: seq<Hash>, ignore: set<Hash>,
                         seen: set<Hash>, result: seq<Hash>, stack: seq<Hash>)
    requires stack != [] && stack[|stack| - 1] !in seen && stack[|stack| - 1] in store
    requires WalkInvariant(store, starts, ignore, seen, result, stack)
    ensures var h := stack[|stack| - 1];
            && Distinct(result + [h])
            && h !in ignore && ReachableAvoiding(store, starts, ignore, h)
            && (forall x :: x in result + [h] <==> x in result || x == h)
  {
    var h := stack[|stack| - 1];
    var result' := result + [h];
    assert h in stack;
    assert h !in result;
    forall i, j | 0 <= i < j < |result'|
      ensures result'[i] != result'[j]
    {
      if j == |result| {
        assert result'[i] == result[i] && result[i] in result;
      }
    }
  }

  /** `revlist.Objects`: every object reachable from `starts` that is not
      ignored and not behind an ignored object, each listed once. A hash
      that must be followed but is not in the store ends the walk with
      `ObjectNotFound`. */
  method Objects(store: Store, starts: seq<Hash>, ignore: set<Hash>) returns (r: Result<seq<Hash>, Error>)
    ensures r.Success? ==> Distinct(r.value)
    ensures r.Success? ==> forall h :: h in r.value ==>
              h in store && h !in ignore && ReachableAvoiding(store, starts, ignore, h)
    ensures r.Success? ==> forall s :: s in starts && s !in ignore ==> s in r.value
    ensures r.Success? ==> forall h, c :: h in r.value && c in Children(store[h]) ==> c in r.value || c in ignore
    ensures r.Failure? ==> r.error.hash !in store && ReachableAvoiding(store, starts, ignore, r.error.hash)
  {
    var seen := ignore;
    var result: seq<Hash> := [];
    var stack := starts;
    WalkStart(store, starts, ignore);
    while stack != []
      invariant WalkInvariant(store, starts, ignore, seen, result, stack)
      decreases store.Keys - seen, |stack|
    {
      var h := stack[|stack| - 1];
      if h in seen {
        WalkSkip(store, starts, ignore, seen, result, stack);
        stack := stack[..|stack| - 1];
        continue;
      }
      if h !in store {
        assert h in stack;
        return Failure(ObjectNotFound(h));
      }
      WalkVisit(store, starts, ignore, seen, result, stack);
      seen := seen + {h};
      result := result + [h];
      stack := stack[..|stack| - 1] + Children(store[h]);
    }
    return Success(result);
  }

  lemma {:induction false} ChildrenReachable(store: Store, starts: seq<Hash>, ignore: set<Hash>, h: Hash)
    requires h in store && h !in ignore && ReachableAvoiding(store, starts, ignore, h)
    ensures forall c :: c in Children(store[h]) ==> c in ignore || ReachableAvoiding(store, starts, ignore, c)
  {
    var p :| IsPath(store, p) && p[0] in starts && p[|p| - 1] == h && Avoids(p, ignore);
    forall c | c in Children(store[h]) && c !in ignore
      ensures ReachableAvoiding(store, starts, ignore, c)
    {
      ExtendPath(store, ignore, p, c);
      var q := p + [c];
      assert q[0] in starts && q[|q| - 1] == c;
    }
  }

  lemma {:induction false} ExtendPath(store: Store, ignore: set<Hash>, p: seq<Hash>, c: Hash)
    requires IsPath(store, p) && Avoids(p, ignore) && c !in ignore && Edge(store, p[|p| - 1], c)
    ensures IsPath(store, p + [c]) && Avoids(p + [c], ignore) && (p + [c])[0] == p[0]
  {
    var q := p + [c];
    forall k | 0 <= k < |q| - 1
      ensures Edge(store, q[k], q[k + 1])
    {
      if k < |p| - 1 {
        assert q[k] == p[k] && q[k + 1] == p[k + 1];
      }
    }
    forall k | 0 <= k < |q|
      ensures q[k] !in ignore
    {
      if k < |p| {
        assert q[k] == p[k];
      }
    }
  }

  /** A closed set holding `start` holds everything reachable from it. */
  lemma {:induction false} ClosedHoldsReachable(store: Store, r: set<Hash>, start: Hash, h: Hash)
    requires Closed(store, r) && start in r && Reachable(store, start, h)
    ensures h in r
  {
    var p :| IsPath(store, p) && p[0] in [start] && p[|p| - 1] == h && Avoids(p, {});
    var i := 0;
    while i < |p| - 1
      invariant 0 <= i < |p| && p[i] in r
    {
      assert Edge(store, p[i], p[i + 1]);
      i := i + 1;
    }
  }

  /** A successful walk from `end` with nothing ignored lists exactly the
      objects reachable from `end`, and that set is closed. */
  lemma {:induction false} FullWalkIsReachable(store: Store, end: Hash, r: seq<Hash>, h: Hash)
    requires forall x :: x in r ==> x in store && ReachableAvoiding(store, [end], {}, x)
    requires end in r
    requires forall x, c :: x in r && c in Children(store[x]) ==> c in r
    ensures h in r <==> Reachable(store, end, h)
  {
    if Reachable(store, end, h) {
      ClosedHoldsReachable(store, (set x | x in r), end, h);
    }
  }

  /** Two paths glued where the first ends and the second passes. */
  lemma {:induction false} JoinPaths(store: Store, q: seq<Hash>, p: seq<Hash>, i: nat)
    requires IsPath(store, q) && IsPath(store, p) && i < |p| && q[|q| - 1] == p[i]
    ensures IsPath(store, q + p[i + 1..])
    ensures (q + p[i + 1..])[0] == q[0] && (q + p[i + 1..])[|q + p[i + 1..]| - 1] == p[|p| - 1]
  {
    var joined := q + p[i + 1..];
    forall k | 0 <= k < |joined| - 1
      ensures Edge(store, joined[k], joined[k + 1])
    {
      if k == |q| - 1 {
        assert joined[k] == p[i] && joined[k + 1] == p[i + 1];
      } else if k >= |q| {
        assert joined[k] == p[i + 1 + (k - |q|)] && joined[k + 1] == p[i + 1 + (k - |q|) + 1];
      } else {
        assert joined[k] == q[k] && joined[k + 1] == q[k + 1];
      }
    }
  }

  /** When the ignore set is everything reachable from `end` (a closed set),
      reaching `h` from `begin` while avoiding it is the same as reaching `h`
      from `begin` but not from `end`. */
  lemma {:induction false} AvoidingClosedSet(store: Store, begin: Hash, end: Hash, ignore: set<Hash>, h: Hash)
    requires forall x :: x in ignore <==> Reachable(store, end, x)
    ensures ReachableAvoiding(store, [begin], ignore, h) <==> Reachable(store, begin, h) && !Reachable(store, end, h)
  {
    if ReachableAvoiding(store, [begin], ignore, h) {
      var p :| IsPath(store, p) && p[0] in [begin] && p[|p| - 1] == h && Avoids(p, ignore);
      assert Avoids(p, {});
      assert p[|p| - 1] !in ignore;
    }
    if Reachable(store, begin, h) && !Reachable(store, end, h) {
      var p :| IsPath(store, p) && p[0] in [begin] && p[|p| - 1] == h && Avoids(p, {});
      forall i | 0 <= i < |p|
        ensures p[i] !in ignore
      {
        if p[i] in ignore {
          NotBehindReachable(store, end, p, i);
        }
      }
      assert Avoids(p, ignore);
    }
  }

  /** Whatever lies on a path after an object reachable from `end` is
      reachable from `end` too. */
  lemma {:induction false} NotBehindReachable(store: Store, end: Hash, p: seq<Hash>, i: nat)
    requires IsPath(store, p) && i < |p| && Reachable(store, end, p[i])
    ensures Reachable(store, end, p[|p| - 1])
  {
    var q :| IsPath(store, q) && q[0] in [end] && q[|q| - 1] == p[i] && Avoids(q, {});
    JoinPaths(store, q, p, i);
    var joined := q + p[i + 1..];
    assert Avoids(joined, {});
  }
}

=== FILE: loc.dfy ===
/** Line counting over a commit tree (`FileLOCFromTree`, `LOCFilesFromTree`
    and their whitespace-excluded variants in gitfuncs/gitfuncs.go). A tree is
    the sequence `tree.Files()` enumerates, each file with the lines
    `f.Lines()` returned for it. */
module Loc {
  import opened Seqs

  /** A file of a tree: its path and its lines (empty when reading failed,
      since the error of `f.Lines()` is dropped). */
  datatype File = File(name: string, lines: seq<string>)

  type Tree = seq<File>

  /** A git tree lists every path once. */
  predicate DistinctNames(tree: Tree) {
    forall i, j :: 0 <= i < j < |tree| ==> tree[i].name != tree[j].name
  }

  predicate Absent(tree: Tree, path: string) {
    forall i :: 0 <= i < |tree| ==> tree[i].name != path
  }

  /** The lines that are not "" (the whitespace-excluded count). */
  function NonBlankCount(lines: seq<string>): (n: nat)
    ensures n <= |lines|
    ensures n == |lines| <==> forall i :: 0 <= i < |lines| ==> lines[i] != ""
    ensures n + multiset(lines)[""] == |lines|
  {
    if |lines| == 0 then 0
    else
      var front := lines[..|lines| - 1];
      assert lines == front + [lines[|lines| - 1]];
      NonBlankCount(front) + (if lines[|lines| - 1] != "" then 1 else 0)
  }

  function LineTotal(f: File): int {
    |f.lines|
  }

  function NonBlankTotal(f: File): int {
    NonBlankCount(f.lines)
  }

  /** Lines of the file named `path`; the last file of that name wins, and a
      missing file has 0 lines. */
  function FileLOCFromTree(tree: Tree, path: string): (loc: nat)
    ensures Absent(tree, path) ==> loc == 0
    ensures forall i :: 0 <= i < |tree| && LastNamed(tree, path, i) ==> loc == |tree[i].lines|
  {
    if |tree| == 0 then 0
    else if tree[|tree| - 1].name == path then |tree[|tree| - 1].lines|
    else
      var front := tree[..|tree| - 1];
      assert forall i :: 0 <= i < |front| && LastNamed(tree, path, i) ==> LastNamed(front, path, i);
      FileLOCFromTree(front, path)
  }

  /** File `i` is named `path` and no later file is. */
  predicate LastNamed(tree: Tree, path: string, i: nat)
    requires i < |tree|
  {
    tree[i].name == path && forall j :: i < j < |tree| ==> tree[j].name != path
  }

  /** Non-"" lines of the files named `path`. Unlike the inclusive count, the
      source adds up every file of that name, which for a tree (paths
      distinct) is the one file. */
  function FileLOCFromTreeWhitespaceExcluded(tree: Tree, path: string): (loc: nat)
    ensures loc == Sum(tree, NonBlankIfNamed(path))
    ensures Absent(tree, path) ==> loc == 0
    ensures DistinctNames(tree) ==>
              forall i :: 0 <= i < |tree| && tree[i].name == path ==> loc == NonBlankCount(tree[i].lines)
  {
    if |tree| == 0 then 0
    else
      var last := tree[|tree| - 1];
      var front := tree[..|tree| - 1];
      assert DistinctNames(tree) ==> DistinctNames(front) && (last.name == path ==> Absent(front, path));
      assert tree == front + [last];
      SumAppend(front, [last], NonBlankIfNamed(path));
      assert [last][1..] == [];
      FileLOCFromTreeWhitespaceExcluded(front, path)
        + (if last.name == path then NonBlankCount(last.lines) else 0)
  }

  /** A file's non-"" lines when it is named `path`, else 0. */
  function NonBlankIfNamed(path: string): File -> int {
    (f: File) => if f.name == path then NonBlankCount(f.lines) else 0
  }

  /** What `LOCFilesFromTree` hands back: the total and the enumerated names. */
  datatype LocFiles = LocFiles(loc: int, files: seq<string>)

  function Names(tree: Tree): (names: seq<string>)
    ensures |names| == |tree|
    ensures forall i :: 0 <= i < |tree| ==> names[i] == tree[i].name
  {
    if |tree| == 0 then [] else [tree[0].name] + Names(tree[1..])
  }

  /** Total lines of a tree and every file name once, in enumeration order. */
  function LOCFilesFromTree(tree: Tree): (r: LocFiles)
    ensures r.files == Names(tree)
  {
    LocFiles(Sum(tree, LineTotal), Names(tree))
  }

  /** Total non-"" lines of a tree and every file name once, in enumeration order. */
  function LOCFilesFromTreeWhitespaceExcluded(tree: Tree): (r: LocFiles)
    ensures r.files == Names(tree)
  {
    LocFiles(Sum(tree, NonBlankTotal), Names(tree))
  }

  /** The per-file counts of the named files, added up. */
  function SumFileLOC(tree: Tree, names: seq<string>, excludeBlank: bool): int {
    if |names| == 0 then 0
    else
      (if excludeBlank then FileLOCFromTreeWhitespaceExcluded(tree, names[0]) else FileLOCFromTree(tree, names[0]))
        + SumFileLOC(tree, names[1..], excludeBlank)
  }

  lemma {:induction false} SuffixSums(tree: Tree, s: nat)
    requires DistinctNames(tree) && s <= |tree|
    ensures Sum(tree[s..], LineTotal) == SumFileLOC(tree, Names(tree)[s..], false)
    ensures Sum(tree[s..], NonBlankTotal) == SumFileLOC(tree, Names(tree)[s..], true)
    decreases |tree| - s
  {
    if s < |tree| {
      SuffixSums(tree, s + 1);
      assert tree[s..][1..] == tree[s + 1..];
      assert Names(tree)[s..][1..] == Names(tree)[s + 1..];
      assert Names(tree)[s..][0] == tree[s].name;
    }
  }

  /** The tree total is the sum of the per-file counts over the listed names. */
  lemma {:induction false} TreeLOCIsSumOfFileLOC(tree: Tree)
    requires DistinctNames(tree)
    ensures LOCFilesFromTree(tree).loc == SumFileLOC(tree, LOCFilesFromTree(tree).files, false)
    ensures LOCFilesFromTreeWhitespaceExcluded(tree).loc
         == SumFileLOC(tree, LOCFilesFromTreeWhitespaceExcluded(tree).files, true)
  {
    SuffixSums(tree, 0);
    assert tree[0..] == tree;
    assert Names(tree)[0..] == Names(tree);
  }

  /** The order in which the tree is enumerated does not change the totals
      nor which names are listed. */
  lemma {:induction false} TreeLOCOrderIndependent(t1: Tree, t2: Tree)
    requires multiset(t1) == multiset(t2)
    ensures LOCFilesFromTree(t1).loc == LOCFilesFromTree(t2).loc
    ensures LOCFilesFromTreeWhitespaceExcluded(t1).loc == LOCFilesFromTreeWhitespaceExcluded(t2).loc
    ensures multiset(LOCFilesFromTree(t1).files) == multiset(LOCFilesFromTree(t2).files)
  {
    SumPermutation(t1, t2, LineTotal);
    SumPermutation(t1, t2, NonBlankTotal);
    NamesPermutation(t1, t2);
  }

  lemma {:induction false} NameMultiplicity(t: Tree, n: string)
    ensures multiset(Names(t))[n] == Sum(t, (f: File) => if f.name == n then 1 else 0)
    decreases |t|
  {
    if |t| > 0 {
      NameMultiplicity(t[1..], n);
      assert multiset(Names(t)) == multiset{t[0].name} + multiset(Names(t[1..]));
    }
  }

  lemma {:induction false} NamesPermutation(t1: Tree, t2: Tree)
    requires multiset(t1) == multiset(t2)
    ensures multiset(Names(t1)) == multiset(Names(t2))
  {
    forall n: string
      ensures multiset(Names(t1))[n] == multiset(Names(t2))[n]
    {
      NameMultiplicity(t1, n);
      NameMultiplicity(t2, n);
      SumPermutation(t1, t2, (f: File) => if f.name == n then 1 else 0);
    }
  }

  /** Excluding blank lines never increases a count, and a missing file
      counts 0 lines either way. */
  lemma {:induction false} ExcludedAtMostIncluded(tree: Tree, path: string)
    requires DistinctNames(tree)
    ensures FileLOCFromTreeWhitespaceExcluded(tree, path) <= FileLOCFromTree(tree, path)
    ensures LOCFilesFromTreeWhitespaceExcluded(tree).loc <= LOCFilesFromTree(tree).loc
  {
    SumMonotone(tree, NonBlankTotal, LineTotal);
  }
}

=== FILE: revlist.dfy ===
/** `RevList` and `GetDistinctAuthorsEMailIds` (gitfuncs/gitfuncs.go). The
    enumerator walks the history of `endCommit`, then the history of
    `beginCommit` with the first walk as its ignore set, so the range it
    returns is reachable(beginCommit) minus reachable(endCommit). */
module RevList {
  import opened Wrappers
  import opened Seqs
  import opened GitObjects

  /** `h` is in the range the code enumerates. */
  ghost predicate InRange(store: Store, beginCommit: Hash, endCommit: Hash, h: Hash) {
    Reachable(store, beginCommit, h) && !Reachable(store, endCommit, h)
  }

  /** Both histories are complete: every hash reachable from either commit
      is in the store, so neither walk meets a missing object. */
  ghost predicate HistoriesPresent(store: Store, beginCommit: Hash, endCommit: Hash) {
    forall h :: Reachable(store, beginCommit, h) || Reachable(store, endCommit, h) ==> h in store
  }

  predicate IsCommitAt(store: Store, h: Hash) {
    h in store && store[h].CommitObject?
  }

  /** Commit lookup over the walked hashes: a hash that is not a commit
      (a tree or a blob) is skipped. */
  function CommitsAmong(store: Store, hs: seq<Hash>): (cs: seq<Commit>)
    ensures forall c :: c in cs <==> exists i :: 0 <= i < |hs| && IsCommitAt(store, hs[i]) && store[hs[i]].commit == c
    ensures |cs| <= |hs|
  {
    if |hs| == 0 then []
    else
      var rest := CommitsAmong(store, hs[1..]);
      assert forall i :: 1 <= i < |hs| ==> hs[i] == hs[1..][i - 1];
      assert forall c :: c in rest ==> exists i :: 0 <= i < |hs| && IsCommitAt(store, hs[i]) && store[hs[i]].commit == c by {
        forall c | c in rest
          ensures exists i :: 0 <= i < |hs| && IsCommitAt(store, hs[i]) && store[hs[i]].commit == c
        {
          var j :| 0 <= j < |hs[1..]| && IsCommitAt(store, hs[1..][j]) && store[hs[1..][j]].commit == c;
          assert hs[j + 1] == hs[1..][j];
        }
      }
      (if IsCommitAt(store, hs[0]) then [store[hs[0]].commit] else []) + rest
  }

  /** Every commit object is stored under its own hash, as in a git object
      database. */
  predicate CommitsKeyedByHash(store: Store) {
    forall h :: h in store && store[h].CommitObject? ==> store[h].commit.hash == h
  }

  /** Distinct hashes of a well-formed store name distinct commits. */
  lemma {:induction false} CommitsAmongDistinct(store: Store, hs: seq<Hash>)
    requires CommitsKeyedByHash(store) && Distinct(hs)
    ensures Distinct(CommitsAmong(store, hs))
    decreases |hs|
  {
    if |hs| > 0 {
      var tail := hs[1..];
      assert Distinct(tail) by {
        forall i, j | 0 <= i < j < |tail|
          ensures tail[i] != tail[j]
        {
          assert tail[i] == hs[i + 1] && tail[j] == hs[j + 1];
        }
      }
      CommitsAmongDistinct(store, tail);
      var rest := CommitsAmong(store, tail);
      if IsCommitAt(store, hs[0]) {
        var c := store[hs[0]].commit;
        assert c !in rest by {
          forall k | 0 <= k < |tail| && IsCommitAt(store, tail[k])
            ensures store[tail[k]].commit != c
          {
            assert tail[k] == hs[k + 1];
          }
        }
        assert CommitsAmong(store, hs) == [c] + rest;
        forall i, j | 0 <= i < j < |[c] + rest|
          ensures ([c] + rest)[i] != ([c] + rest)[j]
        {
          assert ([c] + rest)[j] == rest[j - 1];
          if i > 0 {
            assert ([c] + rest)[i] == rest[i - 1];
          }
        }
      } else {
        assert CommitsAmong(store, hs) == rest;
      }
    }
  }

  /** Newest first: committer times never increase along the sequence. */
  predicate SortedByTimeDesc(cs: seq<Commit>) {
    forall i, j :: 0 <= i < j < |cs| ==> cs[i].committer.when >= cs[j].committer.when
  }

  function InsertByTime(c: Commit, sorted: seq<Commit>): (r: seq<Commit>)
    requires SortedByTimeDesc(sorted)
    ensures SortedByTimeDesc(r)
    ensures multiset(r) == multiset(sorted) + multiset{c}
  {
    if |sorted| == 0 then [c]
    else if c.committer.when >= sorted[0].committer.when then [c] + sorted
    else
      var rest := InsertByTime(c, sorted[1..]);
      assert sorted == [sorted[0]] + sorted[1..];
      HeadBoundsRest(c, sorted, rest);
      [sorted[0]] + rest
  }

  lemma {:induction false} HeadBoundsRest(c: Commit, sorted: seq<Commit>, rest: seq<Commit>)
    requires |sorted| > 0 && SortedByTimeDesc(sorted)
    requires c.committer.when < sorted[0].committer.when
    requires multiset(rest) == multiset(sorted[1..]) + multiset{c}
    ensures forall k :: 0 <= k < |rest| ==> rest[k].committer.when <= sorted[0].committer.when
  {
    forall k | 0 <= k < |rest|
      ensures rest[k].committer.when <= sorted[0].committer.when
    {
      assert rest[k] in multiset(rest);
      if rest[k] != c {
        assert rest[k] in multiset(sorted[1..]);
        var m :| 0 <= m < |sorted[1..]| && sorted[1..][m] == rest[k];
        assert sorted[m + 1] == rest[k];
      }
    }
  }

  /** The committer-time sort of the code (newest first). Go's `sort.Slice`
      leaves the order of equal times unspecified; any such order is a
      permutation sorted this way. */
  function SortByTimeDesc(cs: seq<Commit>): (r: seq<Commit>)
    ensures SortedByTimeDesc(r)
    ensures multiset(r) == multiset(cs)
  {
    if |cs| == 0 then []
    else
      assert cs == cs[..|cs| - 1] + [cs[|cs| - 1]];
      InsertByTime(cs[|cs| - 1], SortByTimeDesc(cs[..|cs| - 1]))
  }

  /** The second walk of `RevList`, given that its ignore set is the first
      walk's result, lists exactly the range. */
  lemma {:induction false} SecondWalkIsRange(store: Store, beginCommit: Hash, endCommit: Hash, ignore: set<Hash>, hs: seq<Hash>)
    requires forall x :: x in ignore <==> Reachable(store, endCommit, x)
    requires forall h :: h in hs ==> h in store && h !in ignore && ReachableAvoiding(store, [beginCommit], ignore, h)
    requires beginCommit !in ignore ==> beginCommit in hs
    requires forall h, c :: h in hs && c in Children(store[h]) ==> c in hs || c in ignore
    ensures forall h :: h in hs <==> InRange(store, beginCommit, endCommit, h)
  {
    forall h
      ensures h in hs <==> InRange(store, beginCommit, endCommit, h)
    {
      AvoidingClosedSet(store, beginCommit, endCommit, ignore, h);
      if InRange(store, beginCommit, endCommit, h) {
        var p :| IsPath(store, p) && p[0] in [beginCommit] && p[|p| - 1] == h && Avoids(p, ignore);
        WalkCoversPath(store, beginCommit, ignore, hs, p);
      }
    }
  }

  /** The commits of a hash list that holds exactly the range. */
  lemma {:induction false} RangeCommits(store: Store, beginCommit: Hash, endCommit: Hash, hs: seq<Hash>, cs: seq<Commit>)
    requires forall h :: h in hs <==> InRange(store, beginCommit, endCommit, h)
    requires multiset(cs) == multiset(CommitsAmong(store, hs))
    ensures forall c :: c in cs <==>
              exists h :: InRange(store, beginCommit, endCommit, h) && IsCommitAt(store, h) && store[h].commit == c
  {
    forall c
      ensures c in cs <==>
              exists h :: InRange(store, beginCommit, endCommit, h) && IsCommitAt(store, h) && store[h].commit == c
    {
      assert c in cs <==> c in multiset(cs);
      assert c in CommitsAmong(store, hs) <==> c in multiset(CommitsAmong(store, hs));
      if c in cs {
        var i :| 0 <= i < |hs| && IsCommitAt(store, hs[i]) && store[hs[i]].commit == c;
        assert hs[i] in hs;
      }
      if exists h :: InRange(store, beginCommit, endCommit, h) && IsCommitAt(store, h) && store[h].commit == c {
        var h :| InRange(store, beginCommit, endCommit, h) && IsCommitAt(store, h) && store[h].commit == c;
        var i :| 0 <= i < |hs| && hs[i] == h;
      }
    }
  }

  /** `RevList`: the commits reachable from `beginCommit` and not from
      `endCommit`, newest first; a failed walk is returned as the error. */
  method RevList(store: Store, beginCommit: Hash, endCommit: Hash) returns (r: Result<seq<Commit>, Error>)
    ensures r.Success? ==> SortedByTimeDesc(r.value)
    ensures r.Success? ==> forall c :: c in r.value <==>
              exists h :: InRange(store, beginCommit, endCommit, h) && IsCommitAt(store, h) && store[h].commit == c
    ensures r.Success? && CommitsKeyedByHash(store) ==> Distinct(r.value)
    ensures r.Success? && beginCommit == endCommit ==> r.value == []
    ensures r.Success? <==> HistoriesPresent(store, beginCommit, endCommit)
    ensures r.Failure? ==>
              r.error.hash !in store
              && (Reachable(store, endCommit, r.error.hash) || Reachable(store, beginCommit, r.error.hash))
  {
    var range := RangeHashes(store, beginCommit, endCommit);
    if range.Failure? {
      return Failure(range.error);
    }
    var commits := CommitsAmong(store, range.value);
    var sorted := SortByTimeDesc(commits);
    if CommitsKeyedByHash(store) {
      CommitsAmongDistinct(store, range.value);
      DistinctPermutation(commits, sorted);
    }
    RangeCommits(store, beginCommit, endCommit, range.value, sorted);
    assert |sorted| == 0 || sorted[0] in sorted;
    r := Success(sorted);
  }

  /** The two walks of `RevList`: the hashes of the range, in walk order. */
  method RangeHashes(store: Store, beginCommit: Hash, endCommit: Hash) returns (r: Result<seq<Hash>, Error>)
    ensures r.Success? ==> forall h :: h in r.value <==> InRange(store, beginCommit, endCommit, h)
    ensures r.Success? ==> Distinct(r.value)
    ensures r.Success? <==> HistoriesPresent(store, beginCommit, endCommit)
    ensures r.Failure? ==>
              r.error.hash !in store
              && (Reachable(store, endCommit, r.error.hash) || Reachable(store, beginCommit, r.error.hash))
  {
    var ref1hist := Objects(store, [endCommit], {});
    if ref1hist.Failure? {
      WalkStaysReachable(store, endCommit, {}, ref1hist.error.hash);
      return Failure(ref1hist.error);
    }
    var ignore := set h | h in ref1hist.value;
    forall x
      ensures x in ignore <==> Reachable(store, endCommit, x)
    {
      FullWalkIsReachable(store, endCommit, ref1hist.value, x);
    }
    var ref2hist := Objects(store, [beginCommit], ignore);
    if ref2hist.Failure? {
      WalkStaysReachable(store, beginCommit, ignore, ref2hist.error.hash);
      return Failure(ref2hist.error);
    }
    SecondWalkIsRange(store, beginCommit, endCommit, ignore, ref2hist.value);
    forall h | Reachable(store, beginCommit, h) || Reachable(store, endCommit, h)
      ensures h in store
    {
      if !Reachable(store, endCommit, h) {
        assert InRange(store, beginCommit, endCommit, h);
      }
    }
    r := ref2hist;
  }

  lemma {:induction false} WalkStaysReachable(store: Store, start: Hash, ignore: set<Hash>, h: Hash)
    requires ReachableAvoiding(store, [start], ignore, h)
    ensures Reachable(store, start, h)
  {
    var p :| IsPath(store, p) && p[0] in [start] && p[|p| - 1] == h && Avoids(p, ignore);
    assert Avoids(p, {});
  }

  /** A completed walk contains every node of an ignore-avoiding path from its start. */
  lemma {:induction false} WalkCoversPath(store: Store, start: Hash, ignore: set<Hash>, r: seq<Hash>, p: seq<Hash>)
    requires start !in ignore ==> start in r
    requires forall h :: h in r ==> h in store
    requires forall h, c :: h in r && c in Children(store[h]) ==> c in r || c in ignore
    requires IsPath(store, p) && p[0] == start && Avoids(p, ignore)
    ensures p[|p| - 1] in r
  {
    var i := 0;
    while i < |p| - 1
      invariant 0 <= i < |p| && p[i] in r
    {
      assert Edge(store, p[i], p[i + 1]);
      i := i + 1;
    }
  }

  /** As written, a range whose end commit is a child of its begin commit
      is empty: everything reachable from the parent is reachable from the
      child. (The conventional two-dot range would hold the child.) */
  lemma {:induction false} ChildRangeIsEmpty(store: Store, beginCommit: Hash, endCommit: Hash, h: Hash)
    requires endCommit in store && store[endCommit].CommitObject?
    requires beginCommit in store[endCommit].commit.parents
    ensures !InRange(store, beginCommit, endCommit, h)
  {
    if Reachable(store, beginCommit, h) {
      var p :| IsPath(store, p) && p[0] in [beginCommit] && p[|p| - 1] == h && Avoids(p, {});
      var q := [endCommit] + p;
      assert Edge(store, endCommit, beginCommit);
      assert IsPath(store, q) by {
        forall k | 0 <= k < |q| - 1
          ensures Edge(store, q[k], q[k + 1])
        {
          if k > 0 {
            assert q[k] == p[k - 1] && q[k + 1] == p[k];
          }
        }
      }
      assert Avoids(q, {});
      assert q[|q| - 1] == h;
    }
  }

  // ---------------------------------------------------------------------
  // Author extraction

  /** `commit.Tree()`: the tree object the commit names. */
  function TreeOf(store: Store, c: Commit): (r: Result<seq<TreeEntry>, Error>)
    ensures r.Success? <==> c.treeHash in store && store[c.treeHash].TreeObject?
    ensures r.Success? ==> r.value == store[c.treeHash].entries
    ensures r.Failure? ==> r.error == ObjectNotFound(c.treeHash)
  {
    if c.treeHash in store && store[c.treeHash].TreeObject? then Success(store[c.treeHash].entries)
    else Failure(ObjectNotFound(c.treeHash))
  }

  /** `tree.File(path)` succeeds: an entry of that path names a stored blob. */
  predicate HasFile(store: Store, entries: seq<TreeEntry>, path: string) {
    exists i :: 0 <= i < |entries| && entries[i].path == path && entries[i].hash in store && store[entries[i].hash].BlobObject?
  }

  /** The commit's tree resolves and holds the file. */
  predicate TouchesFile(store: Store, c: Commit, path: string) {
    TreeOf(store, c).Success? && HasFile(store, TreeOf(store, c).value, path)
  }

  /** The loop of `GetDistinctAuthorsEMailIds` over the range commits: an
      unresolvable tree is an error; a tree without the file is skipped. */
  function AuthorEmails(store: Store, commits: seq<Commit>, path: string): (r: Result<seq<string>, Error>)
    ensures r.Success? <==> forall i :: 0 <= i < |commits| ==> TreeOf(store, commits[i]).Success?
    ensures r.Success? ==> forall e :: e in r.value <==>
              exists i :: 0 <= i < |commits| && TouchesFile(store, commits[i], path) && commits[i].author.email == e
    ensures r.Failure? ==> exists i :: 0 <= i < |commits| && TreeOf(store, commits[i]) == Failure(r.error)
  {
    if |commits| == 0 then Success([])
    else
      var c := commits[0];
      var tree := TreeOf(store, c);
      if tree.Failure? then Failure(tree.error)
      else
        var rest := AuthorEmails(store, commits[1..], path);
        assert forall i :: 1 <= i < |commits| ==> commits[i] == commits[1..][i - 1];
        if rest.Failure? then
          var j :| 0 <= j < |commits[1..]| && TreeOf(store, commits[1..][j]) == Failure(rest.error);
          assert TreeOf(store, commits[j + 1]) == Failure(rest.error);
          rest
        else
          assert forall e :: e in rest.value ==>
                   exists i :: 0 <= i < |commits| && TouchesFile(store, commits[i], path) && commits[i].author.email == e by {
            forall e | e in rest.value
              ensures exists i :: 0 <= i < |commits| && TouchesFile(store, commits[i], path) && commits[i].author.email == e
            {
              var j :| 0 <= j < |commits[1..]| && TouchesFile(store, commits[1..][j], path) && commits[1..][j].author.email == e;
              assert commits[j + 1] == commits[1..][j];
            }
          }
          if HasFile(store, tree.value, path) then Success([c.author.email] + rest.value) else rest
  }

  /** `GetDistinctAuthorsEMailIds`: the e-mails, without duplicates, of the
      range commits whose tree holds the file. Commits without the file are
      skipped; errors of the walk and of `commit.Tree()` are returned. */
  method GetDistinctAuthorsEMailIds(store: Store, beginCommit: Hash, endCommit: Hash, filePath: string)
    returns (r: Result<seq<string>, Error>)
    ensures r.Success? ==> Distinct(r.value)
    ensures r.Success? ==> forall e :: e in r.value <==>
              exists h :: InRange(store, beginCommit, endCommit, h) && IsCommitAt(store, h)
                          && TouchesFile(store, store[h].commit, filePath) && store[h].commit.author.email == e
    ensures r.Success? ==> forall h :: InRange(store, beginCommit, endCommit, h) && IsCommitAt(store, h) ==>
              TreeOf(store, store[h].commit).Success?
    ensures r.Success? ==> HistoriesPresent(store, beginCommit, endCommit)
    ensures r.Failure? ==>
              (r.error.hash !in store && (Reachable(store, endCommit, r.error.hash) || Reachable(store, beginCommit, r.error.hash)))
              || (exists h :: InRange(store, beginCommit, endCommit, h) && IsCommitAt(store, h)
                              && TreeOf(store, store[h].commit) == Failure(r.error))
  {
    var commits := RevList(store, beginCommit, endCommit);
    if commits.Failure? {
      return Failure(commits.error);
    }
    var authors := AuthorEmails(store, commits.value, filePath);
    if authors.Failure? {
      var i :| 0 <= i < |commits.value| && TreeOf(store, commits.value[i]) == Failure(authors.error);
      assert commits.value[i] in commits.value;
      return Failure(authors.error);
    }
    forall h | InRange(store, beginCommit, endCommit, h) && IsCommitAt(store, h)
      ensures TreeOf(store, store[h].commit).Success?
    {
      assert store[h].commit in commits.value;
      var i :| 0 <= i < |commits.value| && commits.value[i] == store[h].commit;
    }
    var unique := Unique(authors.value);
    forall e
      ensures e in unique <==> e in authors.value
    {
      if e in unique {
        var k :| 0 <= k < |unique| && unique[k] == e;
      }
      if e in authors.value {
        var k :| 0 <= k < |authors.value| && authors.value[k] == e;
      }
    }
    forall e | e in authors.value
      ensures exists h :: InRange(store, beginCommit, endCommit, h) && IsCommitAt(store, h)
                          && TouchesFile(store, store[h].commit, filePath) && store[h].commit.author.email == e
    {
      var i :| 0 <= i < |commits.value| && TouchesFile(store, commits.value[i], filePath) && commits.value[i].author.email == e;
      assert commits.value[i] in commits.value;
    }
    forall h | InRange(store, beginCommit, endCommit, h) && IsCommitAt(store, h) && TouchesFile(store, store[h].commit, filePath)
      ensures store[h].commit.author.email in authors.value
    {
      assert store[h].commit in commits.value;
      var i :| 0 <= i < |commits.value| && commits.value[i] == store[h].commit;
    }
    return Success(unique);
  }
}

=== FILE: seqs.dfy ===
/** Generic facts about sequences: sums, duplicate-freedom and the
    duplicate remover the author extractor applies to its e-mail list. */
module Seqs {

  /** No element occurs twice. */
  predicate Distinct<T(==)>(xs: seq<T>) {
    forall i, j :: 0 <= i < j < |xs| ==> xs[i] != xs[j]
  }

  /** The sum of `f` over the elements of `xs`, in order. */
  function Sum<T>(xs: seq<T>, f: T -> int): int {
    if |xs| == 0 then 0 else f(xs[0]) + Sum(xs[1..], f)
  }

  lemma {:induction false} SumAppend<T>(xs: seq<T>, ys: seq<T>, f: T -> int)
    ensures Sum(xs + ys, f) == Sum(xs, f) + Sum(ys, f)
  {
    if |xs| == 0 {
      assert xs + ys == ys;
    } else {
      assert (xs + ys)[1..] == xs[1..] + ys;
      SumAppend(xs[1..], ys, f);
    }
  }

  /** Removing the element at index `k` takes exactly its own term out of the sum. */
  lemma {:induction false} SumRemove<T>(xs: seq<T>, k: nat, f: T -> int)
    requires k < |xs|
    ensures Sum(xs, f) == f(xs[k]) + Sum(xs[..k] + xs[k + 1..], f)
  {
    var front, mid, back := xs[..k], [xs[k]], xs[k + 1..];
    assert xs == front + mid + back;
    assert Sum(mid, f) == f(xs[k]) by {
      assert mid[1..] == [];
    }
    SumAppend(front + mid, back, f);
    SumAppend(front, mid, f);
    SumAppend(front, back, f);
  }

  /** A sum does not depend on the order of its terms. */
  lemma {:induction false} SumPermutation<T>(xs: seq<T>, ys: seq<T>, f: T -> int)
    requires multiset(xs) == multiset(ys)
    ensures Sum(xs, f) == Sum(ys, f)
    decreases |xs|
  {
    if |xs| == 0 {
      assert |ys| == |multiset(ys)| == 0;
    } else {
      assert xs[0] in multiset(ys);
      var k :| 0 <= k < |ys| && ys[k] == xs[0];
      var rest := ys[..k] + ys[k + 1..];
      assert ys == ys[..k] + [ys[k]] + ys[k + 1..];
      assert xs == [xs[0]] + xs[1..];
      assert multiset(ys) == multiset(ys[..k]) + multiset{ys[k]} + multiset(ys[k + 1..]);
      assert multiset(rest) == multiset(ys[..k]) + multiset(ys[k + 1..]);
      assert multiset(xs) == multiset{xs[0]} + multiset(xs[1..]);
      assert multiset(xs[1..]) == multiset(xs) - multiset{xs[0]};
      assert multiset(rest) == multiset(ys) - multiset{ys[k]};
      SumPermutation(xs[1..], rest, f);
      SumRemove(ys, k, f);
    }
  }

  /** A sum of pointwise smaller terms is smaller. */
  lemma {:induction false} SumMonotone<T>(xs: seq<T>, f: T -> int, g: T -> int)
    requires forall i :: 0 <= i < |xs| ==> f(xs[i]) <= g(xs[i])
    ensures Sum(xs, f) <= Sum(xs, g)
  {
    if |xs| > 0 {
      SumMonotone(xs[1..], f, g);
    }
  }

  /** A duplicate-free sequence holds each value at most once. */
  lemma {:induction false} DistinctCountsOne<T>(xs: seq<T>)
    requires Distinct(xs)
    ensures forall x :: multiset(xs)[x] <= 1
    decreases |xs|
  {
    if |xs| > 0 {
      var tail := xs[1..];
      assert Distinct(tail) by {
        forall i, j | 0 <= i < j < |tail|
          ensures tail[i] != tail[j]
        {
          assert tail[i] == xs[i + 1] && tail[j] == xs[j + 1];
        }
      }
      DistinctCountsOne(tail);
      assert xs[0] !in tail by {
        forall k | 0 <= k < |tail|
          ensures tail[k] != xs[0]
        {
          assert tail[k] == xs[k + 1];
        }
      }
      assert xs == [xs[0]] + tail;
      assert multiset(xs) == multiset{xs[0]} + multiset(tail);
    }
  }

  /** A sequence holding each value at most once is duplicate-free. */
  lemma {:induction false} CountsOneDistinct<T>(xs: seq<T>)
    requires forall x :: multiset(xs)[x] <= 1
    ensures Distinct(xs)
  {
    forall i, j | 0 <= i < j < |xs|
      ensures xs[i] != xs[j]
    {
      var front, back := xs[..j], xs[j..];
      assert xs == front + back;
      assert front[i] == xs[i] && back[0] == xs[j];
      assert multiset(xs)[xs[i]] == multiset(front)[xs[i]] + multiset(back)[xs[i]];
      assert multiset(front)[xs[i]] >= 1;
      assert multiset(back)[xs[j]] >= 1;
    }
  }

  /** Reordering keeps a sequence duplicate-free. */
  lemma {:induction false} DistinctPermutation<T>(xs: seq<T>, ys: seq<T>)
    requires Distinct(xs) && multiset(xs) == multiset(ys)
    ensures Distinct(ys)
  {
    DistinctCountsOne(xs);
    CountsOneDistinct(ys);
  }

  /** Duplicate removal keeping the first occurrence of every element. The
      contract is all that callers rely on: the same elements, each once. */
  function Unique<T(==)>(xs: seq<T>): (r: seq<T>)
    ensures Distinct(r)
    ensures forall i :: 0 <= i < |r| ==> r[i] in xs
    ensures forall i :: 0 <= i < |xs| ==> xs[i] in r
    ensures |r| <= |xs|
  {
    if |xs| == 0 then []
    else
      var prefix := Unique(xs[..|xs| - 1]);
      assert forall i :: 0 <= i < |xs| - 1 ==> xs[i] == xs[..|xs| - 1][i];
      if xs[|xs| - 1] in prefix then prefix else prefix + [xs[|xs| - 1]]
  }
}

=== FILE: strings.dfy ===
/** The parts of Go's `strings` package the churn tool relies on, over
    `string` = `seq<char>`: `Split` with a non-empty separator, `TrimSpace`
    and `HasPrefix`. Go strings are byte strings; every separator and
    marker used here is ASCII, so splitting at characters and splitting at
    bytes find the same boundaries. */
module Strings {

  /** Number of occurrences of `c` in `s`. */
  function CountChar(s: string, c: char): nat {
    if |s| == 0 then 0 else (if s[0] == c then 1 else 0) + CountChar(s[1..], c)
  }

  /** `sep` occurs in `s` starting at index `i`. */
  predicate OccursAt(s: string, sep: string, i: nat) {
    i + |sep| <= |s| && s[i..i + |sep|] == sep
  }

  predicate Contains(s: string, sep: string) {
    exists i: nat :: i <= |s| && OccursAt(s, sep, i)
  }

  predicate HasPrefix(s: string, prefix: string) {
    |prefix| <= |s| && s[..|prefix|] == prefix
  }

  /** Go's `strings.Split(s, sep)` for a non-empty `sep`: the pieces between
      the leftmost non-overlapping occurrences of `sep`. */
  function Split(s: string, sep: string): (pieces: seq<string>)
    requires |sep| > 0
    ensures |pieces| >= 1
    decreases |s|
  {
    if |s| < |sep| then [s]
    else if s[..|sep|] == sep then [""] + Split(s[|sep|..], sep)
    else
      var rest := Split(s[1..], sep);
      [[s[0]] + rest[0]] + rest[1..]
  }

  /** The inverse of `Split`: the pieces glued back with `sep` between them. */
  function Join(pieces: seq<string>, sep: string): string
    requires |pieces| >= 1
  {
    if |pieces| == 1 then pieces[0] else pieces[0] + sep + Join(pieces[1..], sep)
  }

  lemma {:induction false} JoinConsHead(c: char, pieces: seq<string>, sep: string)
    requires |pieces| >= 1
    ensures Join([[c] + pieces[0]] + pieces[1..], sep) == [c] + Join(pieces, sep)
  {
    var lhs := [[c] + pieces[0]] + pieces[1..];
    assert lhs[1..] == pieces[1..];
  }

  /** Splitting loses nothing: joining the pieces gives back the string. */
  lemma {:induction false} JoinSplit(s: string, sep: string)
    requires |sep| > 0
    ensures Join(Split(s, sep), sep) == s
    decreases |s|
  {
    if |s| < |sep| {
    } else if s[..|sep|] == sep {
      var rest := Split(s[|sep|..], sep);
      assert Split(s, sep) == [""] + rest;
      assert ([""] + rest)[1..] == rest;
      JoinSplit(s[|sep|..], sep);
      assert s == sep + s[|sep|..];
    } else {
      var rest := Split(s[1..], sep);
      assert Split(s, sep) == [[s[0]] + rest[0]] + rest[1..];
      JoinSplit(s[1..], sep);
      JoinConsHead(s[0], rest, sep);
      assert s == [s[0]] + s[1..];
    }
  }

  /** Splitting at a single character yields one piece more than there are
      occurrences of that character. */
  lemma {:induction false} SplitCountChar(s: string, c: char)
    ensures |Split(s, [c])| == CountChar(s, c) + 1
    decreases |s|
  {
    if |s| >= 1 {
      SplitCountChar(s[1..], c);
      if s[..1] == [c] {
        assert s[0] == c;
      } else {
        assert s[0] != c;
      }
    }
  }

  lemma {:induction false} SliceOfTail(s: string, i: nat, n: nat)
    requires |s| >= 1 && i + 1 + n <= |s|
    ensures s[1..][i..i + n] == s[i + 1..i + 1 + n]
  {
    var a, b := s[1..][i..i + n], s[i + 1..i + 1 + n];
    assert |a| == |b|;
    forall k | 0 <= k < n
      ensures a[k] == b[k]
    {
      assert a[k] == s[1..][i + k] == s[i + 1 + k];
    }
  }

  /** `Split` yields a second piece exactly when the separator occurs. */
  lemma {:induction false} SplitFindsSeparator(s: string, sep: string)
    requires |sep| > 0
    ensures |Split(s, sep)| >= 2 <==> Contains(s, sep)
    decreases |s|
  {
    if |s| < |sep| {
      assert !Contains(s, sep);
    } else if s[..|sep|] == sep {
      assert OccursAt(s, sep, 0);
    } else {
      SplitFindsSeparator(s[1..], sep);
      assert !OccursAt(s, sep, 0);
      forall i: nat | i + 1 <= |s|
        ensures OccursAt(s, sep, i + 1) <==> OccursAt(s[1..], sep, i)
      {
        if i + 1 + |sep| <= |s| {
          SliceOfTail(s, i, |sep|);
        }
      }
      if Contains(s, sep) {
        var i: nat :| i <= |s| && OccursAt(s, sep, i);
        assert i >= 1;
        assert OccursAt(s[1..], sep, i - 1);
      }
      if Contains(s[1..], sep) {
        var i: nat :| i <= |s[1..]| && OccursAt(s[1..], sep, i);
        assert OccursAt(s, sep, i + 1);
      }
    }
  }

  /** A string in which the separator never occurs is a single piece. */
  lemma {:induction false} SplitWithoutOccurrence(s: string, sep: string)
    requires |sep| > 0 && !Contains(s, sep)
    ensures Split(s, sep) == [s]
  {
    SplitFindsSeparator(s, sep);
    JoinSplit(s, sep);
  }

  /** When the first occurrence of the separator starts right after `pre`,
      `pre` is the first piece and the pieces of `rest` follow. */
  lemma {:induction false} SplitAtFirst(pre: string, sep: string, rest: string)
    requires |sep| > 0
    requires forall i :: 0 <= i < |pre| ==> !OccursAt(pre + sep + rest, sep, i)
    ensures Split(pre + sep + rest, sep) == [pre] + Split(rest, sep)
    decreases |pre|
  {
    var s := pre + sep + rest;
    if |pre| == 0 {
      assert s == sep + rest;
      assert s[..|sep|] == sep;
      assert s[|sep|..] == rest;
    } else {
      assert !OccursAt(s, sep, 0);
      assert s[..|sep|] != sep;
      var t := pre[1..] + sep + rest;
      assert s[1..] == t;
      forall i | 0 <= i < |pre[1..]|
        ensures !OccursAt(t, sep, i)
      {
        assert !OccursAt(s, sep, i + 1);
        if i + |sep| <= |t| {
          SliceOfTail(s, i, |sep|);
        }
      }
      SplitAtFirst(pre[1..], sep, rest);
      assert pre == [pre[0]] + pre[1..];
    }
  }

  /** A string free of the separator character is a single piece. */
  lemma {:induction false} SplitWithoutSeparator(s: string, c: char)
    requires c !in s
    ensures Split(s, [c]) == [s]
    decreases |s|
  {
    if |s| >= 1 {
      assert s[0] in s;
      assert s[..1] != [c] by {
        assert s[..1][0] == s[0];
      }
      SplitWithoutSeparator(s[1..], c);
      assert s == [s[0]] + s[1..];
    }
  }

  /** A separator-free line followed by the separator is split off as the
      first piece. */
  lemma {:induction false} SplitLine(line: string, c: char, rest: string)
    requires c !in line
    ensures Split(line + [c] + rest, [c]) == [line] + Split(rest, [c])
    decreases |line|
  {
    var s := line + [c] + rest;
    if |line| == 0 {
      assert s[..1] == [c];
      assert s[1..] == rest;
    } else {
      assert line[0] in line;
      assert s[..1] != [c] by {
        assert s[..1][0] == line[0];
      }
      assert s[1..] == line[1..] + [c] + rest;
      SplitLine(line[1..], c, rest);
      assert line == [line[0]] + line[1..];
    }
  }

  /** Go's `unicode.IsSpace`: the Unicode White_Space characters. */
  predicate IsSpace(c: char) {
    || c == '\t' || c == '\n' || c == '\U{000B}' || c == '\U{000C}' || c == '\r' || c == ' '
    || c == '\U{0085}' || c == '\U{00A0}' || c == '\U{1680}'
    || ('\U{2000}' <= c <= '\U{200A}')
    || c == '\U{2028}' || c == '\U{2029}' || c == '\U{202F}' || c == '\U{205F}' || c == '\U{3000}'
  }

  predicate IsBlank(s: string) {
    forall i :: 0 <= i < |s| ==> IsSpace(s[i])
  }

  function TrimLeftSpace(s: string): (t: string)
    ensures |t| <= |s| && t == s[|s| - |t|..]
    ensures IsBlank(s[..|s| - |t|])
    ensures |t| > 0 ==> !IsSpace(t[0])
  {
    if |s| > 0 && IsSpace(s[0]) then TrimLeftSpace(s[1..]) else s
  }

  function TrimRightSpace(s: string): (t: string)
    ensures |t| <= |s| && t == s[..|t|]
    ensures IsBlank(s[|t|..])
    ensures |t| > 0 ==> !IsSpace(t[|t| - 1])
  {
    if |s| > 0 && IsSpace(s[|s| - 1]) then TrimRightSpace(s[..|s| - 1]) else s
  }

  /** Go's `strings.TrimSpace`: the longest middle slice of `s` that neither
      starts nor ends with white space; everything cut off is white space. */
  function TrimSpace(s: string): (t: string)
    ensures exists i, j :: 0 <= i <= j <= |s| && t == s[i..j] && IsBlank(s[..i]) && IsBlank(s[j..])
    ensures |t| > 0 ==> !IsSpace(t[0]) && !IsSpace(t[|t| - 1])
    ensures t == "" <==> IsBlank(s)
  {
    var l := TrimLeftSpace(s);
    var t := TrimRightSpace(l);
    TrimSpaceShape(s, l, t);
    t
  }

  lemma {:induction false} BlankConcat(a: string, b: string)
    ensures IsBlank(a + b) <==> IsBlank(a) && IsBlank(b)
  {
    assert forall k :: 0 <= k < |a| ==> (a + b)[k] == a[k];
    assert forall k :: 0 <= k < |b| ==> (a + b)[|a| + k] == b[k];
  }

  lemma {:induction false} TrimSpaceShape(s: string, l: string, t: string)
    requires |l| <= |s| && l == s[|s| - |l|..] && IsBlank(s[..|s| - |l|])
    requires |t| <= |l| && t == l[..|t|] && IsBlank(l[|t|..])
    requires |t| > 0 ==> !IsSpace(t[|t| - 1])
    requires |l| > 0 ==> !IsSpace(l[0])
    ensures exists i, j :: 0 <= i <= j <= |s| && t == s[i..j] && IsBlank(s[..i]) && IsBlank(s[j..])
    ensures |t| > 0 ==> !IsSpace(t[0])
    ensures t == "" <==> IsBlank(s)
  {
    var i := |s| - |l|;
    var j := i + |t|;
    assert t == s[i..j];
    assert s[j..] == l[|t|..];
    if |t| > 0 {
      assert t[0] == l[0] == s[i];
    }
    assert s == s[..i] + t + s[j..];
    BlankConcat(s[..i] + t, s[j..]);
    BlankConcat(s[..i], t);
  }
}

=== FILE: wrappers.dfy ===
/** Failure-carrying result types used throughout the model. Go's `(value, error)`
    return pairs become `Result`, and Go's nil-able pointers become `Option`. */
module Wrappers {

  datatype Option<+T> = None | Some(value: T)

  datatype Result<+R, +E> = Success(value: R) | Failure(error: E)
}
